=== FILE: README.md ===
# QUIC transport and QUIC data channel: a Dafny model

This project models the sequential bookkeeping of the QUIC layer of a WebRTC-style
stack. It covers two pieces:

- `QuicTransport`, a layered transport built on the `lsquic` engine. Its bookkeeping
  covers the connection state machine (on the five-state `Transport::State` enum),
  the outbound FIFO send queue and its flush pass, and the connection context's
  stream tables: a 16-bit logical-id allocator and the two maps between logical ids
  and native stream handles. It also covers the single-flight flush/receive
  scheduling counters, the per-stream buffered-amount map, the byte counters,
  packet flattening in `send_packets_out`, and the process-wide library
  initialisation flag.
- `QuicDataChannel` and its two final variants, `OutgoingQuicDataChannel` and
  `IncomingQuicDataChannel`. The model covers the open/closed flags, the send gate,
  the private receive FIFO, and the textual open handshake
  `"QUIC_DATA_CHANNEL_OPEN:" + label + ":" + protocol`, with its parser.

Every object is an immutable datatype, and every operation is a pure function from
the old state to the new state. Calls into the engine, into the lower transport or
into the owning transport are returned as outputs. The native engine, connections
and streams are opaque: a stream is a `StreamHandle` (a `nat`), and "the context has
a connection" is a boolean. Engine callbacks are functions applied to the
transport's state. Facts only the engine or the runtime knows become parameters:
whether the engine was created, whether a weak reference still locks, whether the
engine found the connection context, and the handshake status.

Fixed-width arithmetic is written out:

- logical stream ids are `uint16_t` and the allocator wraps at 65536;
- `closeStream(unsigned int)` looks its argument up in a `uint16_t`-keyed map, so the
  key is truncated mod 65536;
- `size_t` counters and buffered amounts wrap mod 2^64;
- the `std::atomic<int>` pending counters wrap as 32-bit two's complement.

The model follows the code as written. In these places the code does something
other than its names and comments suggest:

- A native stream close (`on_stream_close`, quicktransport.cpp:446-452) frees the
  stream context but leaves both id maps untouched; only `closeStream`
  (quicktransport.cpp:199-209) unmaps.
- `OutgoingQuicDataChannel::open` (quicdatachannel.cpp:169-180) builds the handshake
  from the channel's own `mLabel`/`mProtocol`. The constructor
  (quicdatachannel.cpp:163-165) never assigns those fields, so the payload is always
  `QUIC_DATA_CHANNEL_OPEN::`, and the peer learns an empty label and protocol
  (`Channel.OutgoingHandshakeCarriesNoLabel`).
- An incoming channel (`processOpenMessage`, quicdatachannel.cpp:200-220) opens on
  any non-empty payload, marker or not, when its transport is still alive, and then
  also reopens one that was closed. It keeps
  its label and protocol when the marker or the colon is missing. The payload is
  never put on the receive queue.
- The coalescing counter (`enqueueFlush`/`enqueueRecv`, quicktransport.cpp:308-325)
  is incremented per request but decremented once per task. After two requests
  coalesce, the counter stays at 1 or more, and no further task of that kind is
  scheduled for as long as it stays below INT32_MAX requests
  (`Coalescer.CoalescedCounterNeverDrains`).
- `on_hsk_done` (quicktransport.cpp:481-490) with a failed status moves to Failed
  from any state. `on_conn_closed` (quicktransport.cpp:404-409) moves to Disconnected
  but leaves the connection recorded in the context, so later flushes still succeed.
- `trySendMessage` (quicktransport.cpp:344-356) creates a stream and counts the
  message's bytes, but never writes the payload anywhere.
- The channel's `outgoing` (quicdatachannel.cpp:57-67) calls the transport's `send`,
  which only enqueues. It does not write to the channel's stream.

Modules: `Wrappers` (Option/Result), `Numeric` (fixed-width integers), `Bytes` (byte
strings and `std::string::find`), `Messages`, `Transport` (the base class),
`QuicTypes` (stream tags and settings), `StreamTable` (`QuicConnCtx`), `Coalescer`
(pending counters and the processor's task FIFO), `Quic` (`QuicTransport`),
`QuicGlobal` (`Init`/`Cleanup`), `Handshake` (open-message heuristic, serialiser and
parser) and `Channel` (`QuicDataChannel`). The stream tags reuse the WebRTC payload
protocol identifiers: 51, 53, 56 and 57 from section 6.6 of RFC 8831, and 50 from
RFC 8832.

## Model

| member | source | states |
|---|---|---|
| Numeric.Inc16 | src/impl/quicktransport.cpp:416 | the allocator's post-increment on `uint16_t`: one more below 65535, 0 after 65535 |
| Numeric.ToUint16 | src/impl/quicktransport.cpp:199-202 | the `unsigned int` argument of `closeStream` used as a `uint16_t` key is unchanged below 65536 and taken mod 65536 above |
| Numeric.ToUint16Periodic | src/impl/quicktransport.cpp:199-202 | ids that differ by a multiple of 65536 name the same map key |
| Numeric.AddSize | src/impl/quicktransport.hpp:165-166 | `size_t` addition: exact when the sum fits in 0..2^64-1, wrapped by 2^64 above and below |
| Numeric.AddSizeCancels | src/impl/quicktransport.cpp:359-362 | adding any delta and then its negation restores any `size_t` value, wrap-around included |
| Numeric.Inc32 | src/impl/quicktransport.cpp:309 | `++` on `std::atomic<int>`: one more below INT32_MAX, INT32_MIN after it |
| Numeric.Dec32 | src/impl/quicktransport.cpp:312 | `--` on `std::atomic<int>`: one less above INT32_MIN, INT32_MAX below it |
| Bytes.FindFrom | src/impl/quicdatachannel.cpp:206 | the first index at or after `from` where the pattern occurs, or none when it occurs nowhere from there |
| Bytes.Find | src/impl/quicdatachannel.cpp:206 | `find` returns a position exactly when the pattern occurs, and then its first occurrence |
| Bytes.FindByte | src/impl/quicdatachannel.cpp:209 | the first index holding the byte, with no earlier copy; none exactly when the byte is absent |
| Handshake.MarkerSkipIsMarkerLength | src/impl/quicdatachannel.cpp:206-208 | the literal 23 the parser skips equals the marker's length |
| Handshake.IsOpenMessage | src/impl/quicdatachannel.cpp:29-33 | a null message is never an open message; a present one is exactly when its size is positive, whatever its kind or content |
| Handshake.Serialize | src/impl/quicdatachannel.cpp:176 | the payload starts with the marker, then the label, a colon and the protocol, at the stated offsets |
| Handshake.SplitAtColon | src/impl/quicdatachannel.cpp:209-213 | no split exactly when there is no colon; otherwise a colon-free head, a colon and the tail rebuild the input |
| Handshake.ParseAfter | src/impl/quicdatachannel.cpp:206-213 | for any marker: no result exactly when the marker is absent or no colon follows its first occurrence; otherwise a colon-free label and the protocol that rebuild the text from that first occurrence |
| Handshake.ParseOpenPayload | src/impl/quicdatachannel.cpp:200-214 | the same characterisation for the real marker and the literal skip of 23 |
| Handshake.FoundMarker | src/impl/quicdatachannel.cpp:206-209 | once the marker's first occurrence is known, whether the parse fails depends only on a colon following it |
| Handshake.ParseAfterAt | src/impl/quicdatachannel.cpp:206-213 | a first marker followed by a colon-free label, a colon and a protocol parses to exactly that label and protocol |
| Handshake.SplitAtColonOf | src/impl/quicdatachannel.cpp:209-213 | splitting colon-free label + colon + protocol returns label and protocol, whatever colons the protocol holds |
| Handshake.RoundTrip | src/impl/quicdatachannel.cpp:176-213 | the serialised payload parses back to label and protocol if and only if the label has no colon |
| Handshake.RoundTripAt | src/impl/quicdatachannel.cpp:200-214 | the round trip holds after any prefix in which the marker does not start |
| Handshake.EmptyFieldsLayout | src/impl/quicdatachannel.cpp:176 | with empty fields the payload is the marker and one colon, 24 bytes |
| Handshake.EmptyFieldsPayload | src/impl/quicdatachannel.cpp:176-213 | the empty-fields payload parses to an empty label and an empty protocol |
| Transport.NewTransport | src/impl/transport.hpp:40 | a new transport is Disconnected and keeps the given lower transport and callback presence |
| Transport.DefaultTransport | src/impl/transport.hpp:40 | the constructor's defaults: no lower transport, no state callback, Disconnected |
| Transport.ChangeState | src/impl/transport.hpp:101 | the state becomes the one given; lower transport and callback are untouched |
| Transport.StateEnumeration | src/impl/transport.hpp:25-31 | exactly five pairwise distinct states, and every state is one of them |
| QuicTypes.FromTag | src/impl/quicktransport.hpp:87-95 | every used tag value names the stream type whose tag it is |
| QuicTypes.TagsDistinct | src/impl/quicktransport.hpp:87-95 | tags are pairwise distinct, lie in {50..54, 56, 57}, never 55, and `FromTag` inverts `Tag` |
| QuicTypes.DefaultSettings | src/impl/quicktransport.hpp:40-49 | limits 100/100, timeouts 60 s, 120 s and 30 s in microseconds, three flags true, all within `uint32_t` |
| StreamTable.NewConnCtx | src/impl/quicktransport.cpp:150-152 | a new connection context has no connection, empty tables and the allocator at 0 |
| StreamTable.OnNewStream | src/impl/quicktransport.cpp:412-425 | the new stream gets the current id, the allocator advances with wrap, both directions are entered, the new context's flags are false, and every other handle's map entry and context is kept |
| StreamTable.CloseStream | src/impl/quicktransport.cpp:199-209 | a known (truncated) id loses both map entries and its handle is closed; other entries are kept; an unknown id changes nothing |
| StreamTable.SendReset | src/impl/quicktransport.cpp:373-383 | the tables never change; a handle is closed exactly when the id is mapped, and it is the stream mapped to that id |
| StreamTable.OnStreamClose | src/impl/quicktransport.cpp:446-452 | only the stream's context is removed; both id maps, the allocator, the connection flag and every other stream's context are unchanged |
| StreamTable.OnNewStreamKeepsInv | src/impl/quicktransport.cpp:412-425 | below 65536 allocations a fresh handle keeps the maps mutual inverses and grows them by one |
| StreamTable.CloseStreamKeepsInv | src/impl/quicktransport.cpp:199-209 | closing keeps the maps mutual inverses and removes one entry for a known id, none otherwise |
| StreamTable.WrapBreaksInverse | src/impl/quicktransport.hpp:101-103 | once the allocator reuses a still-mapped id the maps stop being inverses |
| StreamTable.NewStreamStep | src/impl/quicktransport.cpp:412-425 | one allocation in a trace carries the trace's preconditions to the rest of it |
| StreamTable.TraceKeepsBijection | src/impl/quicktransport.cpp:199-209 | over any trace with distinct fresh handles the maps stay mutual inverses and hold N - M entries each |
| StreamTable.FreshTraceBijection | src/impl/quicktransport.cpp:412-425 | from a new context, N allocations and M effective closes leave N - M entries in each map |
| StreamTable.AllocatorWrapsAfter65536 | src/impl/quicktransport.hpp:103 | after 65536 allocations the allocator is back at id 0 |
| Coalescer.NewScheduler | src/impl/quicktransport.hpp:155-156 | both pending counters start at 0 with nothing scheduled |
| Coalescer.Enqueue | src/impl/quicktransport.cpp:308-325 | the counter is incremented; a task is appended exactly when the counter was 0; the other counter is untouched |
| Coalescer.EnqueueRecv | src/impl/quicktransport.cpp:308-316 | the receive counter goes up by one with 32-bit wrap, the flush counter stays, and a receive task joins the FIFO exactly when the receive counter was 0 |
| Coalescer.EnqueueFlush | src/impl/quicktransport.cpp:318-325 | the flush counter goes up by one with 32-bit wrap, the receive counter stays, and a flush task joins the FIFO exactly when the flush counter was 0 |
| Coalescer.PopTask | src/impl/quicktransport.cpp:310-313 | the head task is taken in FIFO order and decrements its own counter once |
| Coalescer.NewSchedulerInv | src/impl/quicktransport.hpp:155-156 | the initial scheduler satisfies the invariant |
| Coalescer.EnqueueKeepsInv | src/impl/quicktransport.cpp:308-325 | a request keeps at most one task per kind, never more tasks than the counter, and leaves the counter at least 1 |
| Coalescer.PopKeepsInv | src/impl/quicktransport.cpp:310-313 | running a task keeps the invariant, and no counter goes negative |
| Coalescer.CounterWrapsAtInt32Max | src/impl/quicktransport.cpp:309 | a request at INT32_MAX wraps the counter negative and schedules nothing |
| Coalescer.CoalescedCounterNeverDrains | src/impl/quicktransport.cpp:308-325 | a counter at 1 or more with nothing scheduled schedules nothing more and grows by one per request, as long as it stays below INT32_MAX |
| Coalescer.TwoRequestsCoalesce | src/impl/quicktransport.cpp:318-325 | two requests schedule one task, which leaves the counter at 1 with nothing scheduled |
| Quic.NewQuicTransport | src/impl/quicktransport.cpp:55-153 | fails exactly when the engine cannot be created; otherwise Disconnected, the given lower transport and both callbacks kept, maximum message size defaulting to 65536, empty tables and queue, zero counters |
| Quic.Start | src/impl/quicktransport.cpp:166-171 | from Disconnected the state passes Connecting then Connected; from any other state nothing happens |
| Quic.Connect | src/impl/quicktransport.cpp:254-258 | the placeholder connect makes the state Connected and changes nothing else |
| Quic.Stop | src/impl/quicktransport.cpp:174-180 | any state becomes Disconnected, and nothing else changes |
| Quic.Close | src/impl/quicktransport.cpp:212-217 | any state becomes Disconnected, with the same result as `stop()` |
| Quic.Send | src/impl/quicktransport.cpp:183-191 | accepted exactly when Connected; a refusal changes nothing; acceptance appends the message and requests a flush |
| Quic.AddSizesNoWrap | src/impl/quicktransport.cpp:352 | without wrap the sent counter grows by the messages' total size |
| Quic.TrySendMessage | src/impl/quicktransport.cpp:344-356 | succeeds exactly when the context has a connection, and then adds the size to `bytesSent` |
| Quic.Drain | src/impl/quicktransport.cpp:328-341 | with a connection and no shutdown the whole queue is sent in order, otherwise nothing is; the sent messages followed by what remains are the old queue; the result says whether the queue is empty; an empty queue returns true unchanged |
| Quic.TrySendQueue | src/impl/quicktransport.cpp:328-341 | the loop sends a FIFO prefix, stops at the first failure with that message at the head, counts sent bytes, and equals `Drain` |
| Quic.RunNextTask | src/impl/quicktransport.cpp:302-325 | the processor runs the head task: a flush task drains the queue; either kind then decrements its counter |
| Quic.CloseStream | src/impl/quicktransport.cpp:199-209 | the transport applies the table's close, and the (truncated) id is no longer mapped afterwards |
| Quic.SendReset | src/impl/quicktransport.cpp:373-383 | a handle is closed exactly when the id is mapped, and it is the mapped one |
| Quic.MaxStream | src/impl/quicktransport.cpp:220-222 | reports the outbound stream limit of the settings, not the inbound one |
| Quic.DefaultMaxStream | src/impl/quicktransport.cpp:220-222 | with the default settings `maxStream()` is 100 |
| Quic.ClearStats | src/impl/quicktransport.cpp:225-228 | both byte counters become 0 and nothing else changes |
| Quic.Rtt | src/impl/quicktransport.cpp:241-249 | an estimate exists exactly when the engine gives one, in whole milliseconds truncated from microseconds |
| Quic.UpdateBufferedAmount | src/impl/quicktransport.cpp:359-370 | the stream's amount becomes old (0 if absent) plus delta mod 2^64; other streams keep theirs; the new amount is reported exactly when a callback is set |
| Quic.BufferedAmountNetZero | src/impl/quicktransport.cpp:359-370 | changing a stream's amount by any delta and then by its opposite restores it, and the restored amount is reported |
| Quic.ProcessData | src/impl/quicktransport.cpp:386-391 | the bytes go up as one Binary message and count in `bytesReceived` |
| Quic.OnStreamRead | src/impl/quicktransport.cpp:428-437 | an empty read does nothing; a non-empty one passes exactly those bytes up as Binary and counts them |
| Quic.OnNewConn | src/impl/quicktransport.cpp:396-401 | the context records the connection and the state becomes Connected; nothing else changes |
| Quic.OnConnClosed | src/impl/quicktransport.cpp:404-409 | Disconnected when the context is found, otherwise no change; only the state changes |
| Quic.OnHskDone | src/impl/quicktransport.cpp:481-490 | with a context, Connected exactly for OK or RESUMED_OK and Failed exactly for the other outcomes; without one, no change |
| Quic.OnNewStream | src/impl/quicktransport.cpp:412-425 | the transport's tables take the new stream under the allocator's current id, in both directions, with a fresh context; every other stream's context is kept |
| Quic.OnStreamClose | src/impl/quicktransport.cpp:446-452 | the stream's context goes; the id maps, the connection flag, the allocator, every other stream's context and the rest of the transport stay |
| Quic.ConcatLength | src/impl/quicktransport.cpp:458-471 | the joined segments are as long as the summed segment lengths |
| Quic.ConcatLayout | src/impl/quicktransport.cpp:458-471 | the joined length is the sum, and each segment appears in order at its offset |
| Quic.ConcatSegment | src/impl/quicktransport.cpp:468-471 | segment j sits right after the segments before it in the joined packet |
| Quic.FlattenSpec | src/impl/quicktransport.cpp:458-471 | the two loops compute the total length and the in-order concatenation of the segments |
| Quic.SendPacketsOut | src/impl/quicktransport.cpp:455-478 | one Binary message per spec carrying its segments joined, length their sum, handed to the lower transport when there is one; returns 0 |
| Quic.SendAllQueues | src/impl/quicktransport.cpp:183-191 | while Connected every send is accepted and the queue grows by exactly the messages, in order |
| Quic.SendThenFlushDeliversInOrder | src/impl/quicktransport.cpp:183-196 | with a connection, one flush pass takes the sent messages off the queue in the order they were sent, none skipped or repeated, empties it, and `bytesSent` grows by their total size |
| Quic.StepFixed | src/impl/quicktransport.hpp:145-160 | no single event changes lower transport, settings, maximum message size or the shutdown flag |
| Quic.ConstructionFixed | src/impl/quicktransport.hpp:145-160 | no sequence of events changes them either |
| QuicGlobal.Init | src/impl/quicktransport.cpp:30-43 | a no-op once initialised; otherwise calls the library and sets the flag, or throws when the library fails |
| QuicGlobal.Cleanup | src/impl/quicktransport.cpp:46-52 | clears the flag, calling the library exactly when it was set |
| QuicGlobal.InitIdempotent | src/impl/quicktransport.cpp:30-43 | a second `Init` after a successful one calls nothing and changes nothing |
| QuicGlobal.InitCleanupInit | src/impl/quicktransport.cpp:30-52 | after `Init` and `Cleanup` the next `Init` calls the library again |
| Channel.NewOutgoing | src/impl/quicdatachannel.cpp:163-165 | label and protocol reach the base class only; own fields empty; neither open nor closed; no stream |
| Channel.NewIncoming | src/impl/quicdatachannel.cpp:188-192 | empty label and protocol, bound to the given transport, neither open nor closed, no stream |
| Channel.Lock | src/impl/quicdatachannel.cpp:41 | the weak reference yields the transport exactly when one is referenced and it is alive |
| Channel.Close | src/impl/quicdatachannel.cpp:35-47 | the first close sets closed, clears open and closes the assigned stream only with a live transport and an assigned stream; a later close does nothing |
| Channel.RemoteClose | src/impl/quicdatachannel.cpp:49-55 | the channel ends closed with the same flag change as `close`, never touching the transport |
| Channel.CloseIdempotent | src/impl/quicdatachannel.cpp:35-55 | any later `close` or `remoteClose` after either changes nothing and closes no stream |
| Channel.SendOutgoing | src/impl/quicdatachannel.cpp:57-67 | refused unless open, not closed and the transport alive; otherwise exactly the transport's `send` |
| Channel.IncomingMessage | src/impl/quicdatachannel.cpp:69-76 | null messages and closed channels change nothing; otherwise the message joins the back of the queue |
| Channel.ToVariant | src/impl/quicdatachannel.cpp:81-88 | String messages become text and all other kinds binary, with the same bytes |
| Channel.Receive | src/impl/quicdatachannel.cpp:78-91 | an empty queue returns none; otherwise the head is removed and returned converted |
| Channel.Peek | src/impl/quicdatachannel.cpp:93-106 | returns what `receive` would, without removing it |
| Channel.AvailableAmount | src/impl/quicdatachannel.cpp:108-111 | counts queued messages, positive exactly when `peek` has one |
| Channel.IncomingAllQueue | src/impl/quicdatachannel.cpp:69-76 | on a channel that is not closed, incoming messages extend the queue in arrival order |
| Channel.ReceiveNQueue | src/impl/quicdatachannel.cpp:78-91 | n receives return the first n queued messages in order |
| Channel.ReceiveIsFifo | src/impl/quicdatachannel.cpp:69-111 | what arrives comes back from `receive` in arrival order, converted by kind, and the available amount is the count |
| Channel.AssignStream | src/impl/quicdatachannel.cpp:142-145 | the stream becomes the given id; nothing else changes |
| Channel.BaseOpen | src/impl/quicdatachannel.cpp:147-152 | stores the transport and ends open and not closed, reopening a closed channel |
| Channel.OpenMessage | src/impl/quicdatachannel.cpp:176-177 | a String message carrying the serialised own label and protocol |
| Channel.Open | src/impl/quicdatachannel.cpp:169-198 | both variants open the channel; only an outgoing one with a transport also sends one handshake message |
| Channel.BaseProcessOpenMessage | src/impl/quicdatachannel.cpp:154-160 | a non-empty payload opens the channel with whatever the weak reference yields, changing no other field; otherwise nothing happens |
| Channel.ProcessOpenMessage | src/impl/quicdatachannel.cpp:182-220 | outgoing ignores it; incoming ignores null or empty payloads, takes label and protocol from a parse, opens exactly when already open or alive and then also clears the closed flag (150-151, 216-217), never queues the payload and never touches the kind or the base label and protocol |
| Channel.IncomingOpensOnAnyPayload | src/impl/quicdatachannel.cpp:200-220 | any non-empty payload opens an incoming channel whose transport is alive |
| Channel.IncomingLearnsHandshake | src/impl/quicdatachannel.cpp:200-220 | a well-formed handshake with a colon-free label gives exactly that label and protocol |
| Channel.OutgoingHandshakeCarriesNoLabel | src/impl/quicdatachannel.cpp:163-180 | whatever label is given, the queued handshake is the marker and one colon, and the peer learns an empty label and protocol |
| Channel.CloseReleasesStream | src/impl/quicdatachannel.cpp:35-47 | closing a bound channel asks for its stream, which the transport then no longer maps |

## Left out

- Calls into `lsquic` and OpenSSL are not modelled. This covers engine settings and
  creation, the `ea_get_ssl_ctx` lambda, `lsquic_engine_packet_in`,
  `lsquic_conn_make_stream`, `lsquic_stream_close`, `lsquic_stream_read`,
  `lsquic_conn_close` and `lsquic_conn_get_info`. Their outcomes are parameters or
  outputs.
- `incoming` of `QuicTransport` (quicktransport.cpp:269-285) only hands a non-empty
  packet to the engine, so it is not modelled.
- `shutdown()` only closes the native connection pointer, and the destructor only
  releases engine resources. Neither is modelled.
- `mConn` (quicktransport.hpp:150) is never assigned a connection, and the
  constructor's initializer list (quicktransport.cpp:55-62) leaves it uninitialised,
  so `stop()`, `close()`, `rtt()` and the destructor read an indeterminate pointer.
  The model does not hold it. As a result `Quic.Close` is `Quic.Stop` in the model,
  and `Rtt` takes the engine's optional microsecond estimate as an argument.
- `send` with a null `message_ptr` is not modelled. The source would dereference it
  in `trySendMessage`.
- Mutexes, atomics, `Processor` and `Queue` internals are not modelled, and neither is
  concurrency: operations are sequential and the processor is a task FIFO.
- `Transport`'s method bodies (`recv`, `changeState`, the callback registration) live
  in a file that is not part of this model. `changeState` is a plain assignment, and
  the state callback is not modelled. `Quic.Start` returns the states passed to
  `changeState`.
- The delegating accessors of `QuicDataChannel` (quicdatachannel.cpp:114-140) forward
  to the `DataChannel` base class, which is not part of this model.
- The empty `doRecv` and `on_stream_write`, and the reliability descriptor, which
  nothing on the QUIC path enforces, are not modelled.
- Message kinds other than String and Binary are collapsed into one Control kind.
  `receive` and `peek` treat all non-String kinds alike.
- The example programs are not modelled.
- Quic.OnStreamRead: takes the engine's read result as a chunk of at most 4096 bytes
  (the buffer size) and requires the stream's context to exist, because the engine
  only calls back with a context it was given.
- Coalescer.EnqueueKeepsInv: holds only below INT32_MAX pending requests, because the
  counter wraps there (`Coalescer.CounterWrapsAtInt32Max`).
- Coalescer.CoalescedCounterNeverDrains: holds only while the counter plus the
  requests stays at most INT32_MAX. Beyond that the `std::atomic<int>` counter wraps
  (`Coalescer.CounterWrapsAtInt32Max`), and on reaching 1 again it schedules a task.
- StreamTable.TraceKeepsBijection: covers at most 65536 allocations with distinct
  native handles, because after the allocator wraps the maps stop being inverses
  (`StreamTable.WrapBreaksInverse`).
- Quic.SendThenFlushDeliversInOrder: states the `bytesSent` total only below 2^64.
  Above it the counter wraps (`Quic.AddSizes`).
- Quic.SendThenFlushDeliversInOrder: says only that the queue drains in order. It
  cannot say the payloads reach the peer, because `trySendMessage`
  (quicktransport.cpp:344-356) opens a stream and counts the bytes but never writes
  the payload.

=== FILE: bytes.dfy ===
/** Byte strings as the source's `std::string` / `binary` hold them, and the two
    searches of `std::string` the handshake parser relies on. */
module Bytes {
  import opened Wrappers

  type byte = x: int | 0 <= x < 256
  type Bytes = seq<byte>

  /** The byte of `':'`. */
  const COLON: byte := 58

  /** `pat` occurs in `s` starting at index `i`. */
  predicate OccursAt(s: Bytes, pat: Bytes, i: nat)
  {
    i + |pat| <= |s| && s[i..i + |pat|] == pat
  }

  /** `i` is the first index at which `pat` occurs in `s`. */
  predicate FirstOccurrence(s: Bytes, pat: Bytes, i: nat)
  {
    OccursAt(s, pat, i) && forall j :: 0 <= j < i ==> !OccursAt(s, pat, j)
  }

  /** `std::string::find(pat, from)`: the first occurrence at or after `from`,
      `None` standing for `npos`. */
  function FindFrom(s: Bytes, pat: Bytes, from: nat): (r: Option<nat>)
    decreases |s| - from
    ensures r.Some? ==> from <= r.value && OccursAt(s, pat, r.value)
    ensures r.Some? ==> forall j :: from <= j < r.value ==> !OccursAt(s, pat, j)
    ensures r.None? ==> forall j :: from <= j ==> !OccursAt(s, pat, j)
  {
    if from + |pat| > |s| then None
    else if s[from..from + |pat|] == pat then Some(from)
    else FindFrom(s, pat, from + 1)
  }

  /** `std::string::find(pat)`. */
  function Find(s: Bytes, pat: Bytes): (r: Option<nat>)
    ensures r.Some? <==> exists i :: OccursAt(s, pat, i)
    ensures r.Some? ==> FirstOccurrence(s, pat, r.value)
  {
    FindFrom(s, pat, 0)
  }

  /** `std::string::find(c)` for a single character. */
  function FindByte(s: Bytes, c: byte): (r: Option<nat>)
    ensures r.Some? ==> r.value < |s| && s[r.value] == c && c !in s[..r.value]
    ensures r.None? <==> c !in s
  {
    if |s| == 0 then None
    else if s[0] == c then Some(0)
    else match FindByte(s[1..], c)
      case None => None
      case Some(k) => assert s[1..][..k] == s[1..k + 1]; Some(k + 1)
  }
}

=== FILE: coalescer.dfy ===
/** The single-flight scheduling of flush and receive passes: a pending counter per
    kind (`std::atomic<int>`, so 32-bit with wrap-around) and the processor's FIFO
    of scheduled tasks. A task is scheduled only when its counter goes from 0 to 1,
    and a task decrements its counter once when it runs. */
module Coalescer {
  import opened Wrappers
  import opened Numeric

  datatype Task = FlushTask | RecvTask

  datatype Scheduler = Scheduler(pendingFlush: int32, pendingRecv: int32, tasks: seq<Task>)

  /** Both counters start at 0 and nothing is scheduled. */
  function NewScheduler(): (s: Scheduler)
    ensures s.pendingFlush == 0 && s.pendingRecv == 0 && |s.tasks| == 0
  {
    Scheduler(0, 0, [])
  }

  /** The counter of a task's kind. */
  function Pending(s: Scheduler, t: Task): int32
  {
    match t
    case FlushTask => s.pendingFlush
    case RecvTask => s.pendingRecv
  }

  function WithPending(s: Scheduler, t: Task, v: int32): (r: Scheduler)
    ensures Pending(r, t) == v && r.tasks == s.tasks
    ensures forall u :: u != t ==> Pending(r, u) == Pending(s, u)
  {
    match t
    case FlushTask => s.(pendingFlush := v)
    case RecvTask => s.(pendingRecv := v)
  }

  /** Number of scheduled tasks of one kind. */
  function Count(ts: seq<Task>, t: Task): nat
  {
    if |ts| == 0 then 0 else (if ts[0] == t then 1 else 0) + Count(ts[1..], t)
  }

  lemma {:induction false} CountAppend(ts: seq<Task>, x: Task, t: Task)
    ensures Count(ts + [x], t) == Count(ts, t) + (if x == t then 1 else 0)
  {
    if |ts| > 0 {
      assert (ts + [x])[1..] == ts[1..] + [x];
      CountAppend(ts[1..], x, t);
    }
  }

  /** `enqueueFlush` / `enqueueRecv`: increment the counter and schedule a task
      exactly when the incremented value is 1. */
  function Enqueue(s: Scheduler, t: Task): (r: Scheduler)
    ensures Pending(r, t) == Inc32(Pending(s, t))
    ensures forall u :: u != t ==> Pending(r, u) == Pending(s, u)
    ensures |s.tasks| <= |r.tasks| <= |s.tasks| + 1 && r.tasks[..|s.tasks|] == s.tasks
    ensures |r.tasks| > |s.tasks| <==> Pending(s, t) == 0
    ensures |r.tasks| > |s.tasks| ==> r.tasks[|s.tasks|] == t
  {
    var v := Inc32(Pending(s, t));
    var s' := WithPending(s, t, v);
    if v == 1 then s'.(tasks := s.tasks + [t]) else s'
  }

  /** `enqueueFlush`: the flush counter goes up by one (wrapping at INT32_MAX), the
      receive counter stays, and a flush task joins the back of the FIFO exactly
      when no flush was pending. */
  function EnqueueFlush(s: Scheduler): (r: Scheduler)
    ensures r.pendingFlush == Inc32(s.pendingFlush) && r.pendingRecv == s.pendingRecv
    ensures r.tasks == if s.pendingFlush == 0 then s.tasks + [FlushTask] else s.tasks
  {
    Enqueue(s, FlushTask)
  }

  /** `enqueueRecv`: the same for the receive counter and a receive task. */
  function EnqueueRecv(s: Scheduler): (r: Scheduler)
    ensures r.pendingRecv == Inc32(s.pendingRecv) && r.pendingFlush == s.pendingFlush
    ensures r.tasks == if s.pendingRecv == 0 then s.tasks + [RecvTask] else s.tasks
  {
    Enqueue(s, RecvTask)
  }

  /** The processor takes the task at the head of its FIFO; when the task has run
      its counter is decremented once. Returns the task taken, if any. */
  function PopTask(s: Scheduler): (r: (Scheduler, Option<Task>))
    ensures |s.tasks| == 0 ==> r == (s, None)
    ensures |s.tasks| > 0 ==> r.1 == Some(s.tasks[0]) && r.0.tasks == s.tasks[1..]
    ensures |s.tasks| > 0 ==> Pending(r.0, s.tasks[0]) == Dec32(Pending(s, s.tasks[0]))
    ensures |s.tasks| > 0 ==> forall u :: u != s.tasks[0] ==> Pending(r.0, u) == Pending(s, u)
  {
    if |s.tasks| == 0 then (s, None)
    else
      var t := s.tasks[0];
      (WithPending(s, t, Dec32(Pending(s, t))).(tasks := s.tasks[1..]), Some(t))
  }

  /** At most one task of the kind is scheduled, and the counter is at least the
      number scheduled (hence never negative). */
  ghost predicate InvFor(s: Scheduler, t: Task)
  {
    Count(s.tasks, t) <= 1 && Count(s.tasks, t) <= Pending(s, t)
  }

  ghost predicate Inv(s: Scheduler)
  {
    InvFor(s, FlushTask) && InvFor(s, RecvTask)
  }

  lemma NewSchedulerInv()
    ensures Inv(NewScheduler())
  {
  }

  /** A request keeps the invariant while its counter is below the 32-bit maximum. */
  lemma EnqueueKeepsInv(s: Scheduler, t: Task)
    requires Inv(s) && Pending(s, t) < INT32_MAX
    ensures Inv(Enqueue(s, t))
    ensures Pending(Enqueue(s, t), t) >= 1
  {
    var r := Enqueue(s, t);
    if Pending(s, t) == 0 {
      assert r.tasks == s.tasks + [t];
      CountAppend(s.tasks, t, FlushTask);
      CountAppend(s.tasks, t, RecvTask);
    } else {
      assert r.tasks == s.tasks;
    }
  }

  /** Running a task keeps the invariant: it only decrements a counter that is at
      least 1, so no counter goes negative. */
  lemma PopKeepsInv(s: Scheduler)
    requires Inv(s)
    ensures Inv(PopTask(s).0)
    ensures Pending(PopTask(s).0, FlushTask) >= 0 && Pending(PopTask(s).0, RecvTask) >= 0
  {
    if |s.tasks| > 0 {
      var t := s.tasks[0];
      assert Count(s.tasks, t) == 1 + Count(s.tasks[1..], t);
    }
  }

  /** The invariant needs the bound: 2^31 - 1 coalesced requests followed by one
      more wrap the counter to a negative value. */
  lemma CounterWrapsAtInt32Max(s: Scheduler, t: Task)
    requires Pending(s, t) == INT32_MAX
    ensures Pending(Enqueue(s, t), t) < 0
    ensures Enqueue(s, t).tasks == s.tasks
  {
  }

  /** The scheduling events. */
  datatype SchedEvent = Request(task: Task) | RunNext

  function StepSched(s: Scheduler, e: SchedEvent): Scheduler
  {
    match e
    case Request(t) => Enqueue(s, t)
    case RunNext => PopTask(s).0
  }

  function RunSched(s: Scheduler, evs: seq<SchedEvent>): Scheduler
    decreases |evs|
  {
    if |evs| == 0 then s else RunSched(StepSched(s, evs[0]), evs[1..])
  }

  /** Requests of kind `t` among the events. */
  function Requests(evs: seq<SchedEvent>, t: Task): nat
    decreases |evs|
  {
    if |evs| == 0 then 0 else (if evs[0] == Request(t) then 1 else 0) + Requests(evs[1..], t)
  }

  /** Once a counter is at least 1 with no task of its kind scheduled (as after two
      requests coalesced and the one task ran), no later request or run schedules
      that kind again while the counter stays below INT32_MAX: it only grows, by one
      per request. Past INT32_MAX it wraps (`CounterWrapsAtInt32Max`), and after
      enough further requests it passes through 0 and schedules again. */
  lemma {:induction false} CoalescedCounterNeverDrains(s: Scheduler, t: Task, evs: seq<SchedEvent>)
    requires Pending(s, t) >= 1 && Count(s.tasks, t) == 0
    requires Pending(s, t) + Requests(evs, t) <= INT32_MAX
    ensures Count(RunSched(s, evs).tasks, t) == 0
    ensures Pending(RunSched(s, evs), t) == Pending(s, t) + Requests(evs, t)
    decreases |evs|
  {
    if |evs| > 0 {
      var e := evs[0];
      var s' := StepSched(s, e);
      match e
      case Request(u) =>
        if u == t {
          assert s'.tasks == s.tasks;
        } else if Pending(s, u) == 0 {
          assert s'.tasks == s.tasks + [u];
          CountAppend(s.tasks, u, t);
        } else {
          assert s'.tasks == s.tasks;
        }
        CoalescedCounterNeverDrains(s', t, evs[1..]);
      case RunNext =>
        if |s.tasks| > 0 {
          assert Count(s.tasks, t) == (if s.tasks[0] == t then 1 else 0) + Count(s.tasks[1..], t);
        }
        CoalescedCounterNeverDrains(s', t, evs[1..]);
    }
  }

  /** Two requests in a row schedule one task; after it runs the counter stays at 1
      with nothing scheduled, which is the starting point of the lemma above. */
  lemma TwoRequestsCoalesce(t: Task)
    ensures var s := Enqueue(Enqueue(NewScheduler(), t), t);
      && |s.tasks| == 1 && Pending(s, t) == 2
      && Pending(PopTask(s).0, t) == 1 && Count(PopTask(s).0.tasks, t) == 0
  {
  }
}

=== FILE: data_channel.dfy ===
/** `QuicDataChannel` and its two final variants: the open/closed flags, the send
    gate, the private receive FIFO, and the open handshake (the outgoing variant
    writes it, the incoming variant reads it). */
module Channel {
  import opened Wrappers
  import opened Numeric
  import opened Bytes
  import opened Messages
  import opened Handshake
  import Transport
  import Quic

  /** The two final variants; they differ only in `open` and `processOpenMessage`. */
  datatype Kind = Outgoing | Incoming

  /** The channel's state. `baseLabel`/`baseProtocol` live in the `DataChannel`
      base class; `ownLabel`/`ownProtocol` are this class's own `mLabel` and
      `mProtocol`, which have no initialiser. `transport` is the weak reference to
      the owning transport. */
  datatype QuicDataChannel = QuicDataChannel(
    kind: Kind,
    baseLabel: Bytes,
    baseProtocol: Bytes,
    transport: Option<Transport.TransportRef>,
    stream: Option<uint16>,
    ownLabel: Bytes,
    ownProtocol: Bytes,
    isOpen: bool,
    isClosed: bool,
    recvQueue: seq<Message>)

  /** An outgoing channel: the label and protocol go to the base class only. */
  function NewOutgoing(name: Bytes, protocol: Bytes): (ch: QuicDataChannel)
    ensures ch.kind == Outgoing && ch.baseLabel == name && ch.baseProtocol == protocol
    ensures !ch.isOpen && !ch.isClosed && ch.stream.None? && ch.transport.None?
    ensures ch.ownLabel == [] && ch.ownProtocol == [] && |ch.recvQueue| == 0
  {
    QuicDataChannel(Outgoing, name, protocol, None, None, [], [], false, false, [])
  }

  /** An incoming channel: empty label and protocol, bound to the transport it
      was accepted on. */
  function NewIncoming(transport: Option<Transport.TransportRef>): (ch: QuicDataChannel)
    ensures ch.kind == Incoming && ch.baseLabel == [] && ch.baseProtocol == []
    ensures !ch.isOpen && !ch.isClosed && ch.stream.None? && ch.transport == transport
    ensures ch.ownLabel == [] && ch.ownProtocol == [] && |ch.recvQueue| == 0
  {
    QuicDataChannel(Incoming, [], [], transport, None, [], [], false, false, [])
  }

  /** `mQuicTransport.lock()`: the transport, if one is referenced and it still
      exists (`alive`). */
  function Lock(ch: QuicDataChannel, alive: bool): (r: Option<Transport.TransportRef>)
    ensures r.Some? <==> ch.transport.Some? && alive
    ensures r.Some? ==> r == ch.transport
  {
    if alive then ch.transport else None
  }

  /** `close()`: the first call marks the channel closed and not open and, when the
      transport still exists and a stream is assigned, asks the transport to close
      that stream (returned); later calls do nothing. */
  function Close(ch: QuicDataChannel, alive: bool): (r: (QuicDataChannel, Option<uint16>))
    ensures ch.isClosed ==> r == (ch, None)
    ensures !ch.isClosed ==> r.0 == ch.(isClosed := true, isOpen := false)
    ensures r.1.Some? <==> !ch.isClosed && alive && ch.transport.Some? && ch.stream.Some?
    ensures r.1.Some? ==> r.1 == ch.stream
  {
    if ch.isClosed then (ch, None)
    else
      var closed := ch.(isClosed := true, isOpen := false);
      if Lock(ch, alive).Some? && ch.stream.Some? then (closed, ch.stream) else (closed, None)
  }

  /** `remoteClose()`: the same flag change as `close()`, never involving the
      transport. */
  function RemoteClose(ch: QuicDataChannel): (r: QuicDataChannel)
    ensures r.isClosed
    ensures ch.isClosed ==> r == ch
    ensures !ch.isClosed ==> !r.isOpen
    ensures r.(isClosed := ch.isClosed, isOpen := ch.isOpen) == ch
  {
    if ch.isClosed then ch else ch.(isClosed := true, isOpen := false)
  }

  /** Closing is idempotent: a second `close()` or a `remoteClose()` afterwards
      changes nothing and asks nothing of the transport, and `close()` after
      `remoteClose()` does not close the stream either. */
  lemma CloseIdempotent(ch: QuicDataChannel, alive1: bool, alive2: bool)
    ensures var c1 := Close(ch, alive1).0;
      && Close(c1, alive2) == (c1, None)
      && RemoteClose(c1) == c1
      && c1.isClosed && (!ch.isClosed ==> !c1.isOpen)
    ensures var c2 := RemoteClose(ch);
      && RemoteClose(c2) == c2
      && Close(c2, alive2) == (c2, None)
  {
  }

  /** `outgoing(message)`: refused unless open and not closed and the transport
      still exists; otherwise exactly the transport's `send(message)`. */
  function SendOutgoing(ch: QuicDataChannel, alive: bool, tr: Quic.QuicTransport, m: Message): (r: (bool, Quic.QuicTransport))
    ensures !ch.isOpen || ch.isClosed || Lock(ch, alive).None? ==> r == (false, tr)
    ensures ch.isOpen && !ch.isClosed && Lock(ch, alive).Some? ==> r == Quic.Send(tr, m)
    ensures r.0 ==> ch.isOpen && !ch.isClosed && Quic.StateOf(tr) == Transport.Connected
  {
    if !ch.isOpen || ch.isClosed then (false, tr)
    else if Lock(ch, alive).Some? then Quic.Send(tr, m)
    else (false, tr)
  }

  /** `incoming(message)`: a null message is ignored; otherwise it joins the back
      of the receive queue unless the channel is closed. */
  function IncomingMessage(ch: QuicDataChannel, m: Option<Message>): (r: QuicDataChannel)
    ensures m.None? || ch.isClosed ==> r == ch
    ensures m.Some? && !ch.isClosed ==> r.recvQueue == ch.recvQueue + [m.value]
    ensures r.(recvQueue := ch.recvQueue) == ch
  {
    match m
    case None => ch
    case Some(msg) => if ch.isClosed then ch else ch.(recvQueue := ch.recvQueue + [msg])
  }

  /** A queued message as the application sees it: String messages as text, any
      other kind as binary. */
  function ToVariant(m: Message): (v: MessageVariant)
    ensures v.Text? <==> m.kind == String
    ensures (if v.Text? then v.text else v.bytes) == m.data
  {
    if m.kind == String then Text(m.data) else Bin(m.data)
  }

  /** `receive()`: removes the head of the queue and returns it converted; `None`
      on an empty queue. */
  function Receive(ch: QuicDataChannel): (r: (QuicDataChannel, Option<MessageVariant>))
    ensures |ch.recvQueue| == 0 ==> r == (ch, None)
    ensures |ch.recvQueue| > 0 ==> r.1 == Some(ToVariant(ch.recvQueue[0]))
    ensures |ch.recvQueue| > 0 ==> r.0 == ch.(recvQueue := ch.recvQueue[1..])
  {
    if |ch.recvQueue| == 0 then (ch, None)
    else (ch.(recvQueue := ch.recvQueue[1..]), Some(ToVariant(ch.recvQueue[0])))
  }

  /** `peek()`: what `receive()` would return, without removing it. */
  function Peek(ch: QuicDataChannel): (r: Option<MessageVariant>)
    ensures r == Receive(ch).1
    ensures r.Some? <==> |ch.recvQueue| > 0
  {
    if |ch.recvQueue| == 0 then None else Some(ToVariant(ch.recvQueue[0]))
  }

  /** `availableAmount()`: the number of queued messages (not bytes). */
  function AvailableAmount(ch: QuicDataChannel): (n: nat)
    ensures n == |ch.recvQueue|
    ensures n > 0 <==> Peek(ch).Some?
  {
    |ch.recvQueue|
  }

  /** `receive()` called `n` times, collecting what it returns. */
  function ReceiveN(ch: QuicDataChannel, n: nat): seq<Option<MessageVariant>>
    decreases n
  {
    if n == 0 then [] else [Receive(ch).1] + ReceiveN(Receive(ch).0, n - 1)
  }

  /** `incoming` for each message in turn. */
  function IncomingAll(ch: QuicDataChannel, ms: seq<Message>): QuicDataChannel
    decreases |ms|
  {
    if |ms| == 0 then ch else IncomingAll(IncomingMessage(ch, Some(ms[0])), ms[1..])
  }

  lemma {:induction false} IncomingAllQueue(ch: QuicDataChannel, ms: seq<Message>)
    requires !ch.isClosed
    ensures IncomingAll(ch, ms) == ch.(recvQueue := ch.recvQueue + ms)
    decreases |ms|
  {
    if |ms| > 0 {
      var ch' := IncomingMessage(ch, Some(ms[0]));
      IncomingAllQueue(ch', ms[1..]);
      assert ch.recvQueue + [ms[0]] + ms[1..] == ch.recvQueue + ms;
    }
  }

  lemma {:induction false} ReceiveNQueue(ch: QuicDataChannel, n: nat)
    requires n <= |ch.recvQueue|
    ensures |ReceiveN(ch, n)| == n
    ensures forall i :: 0 <= i < n ==> ReceiveN(ch, n)[i] == Some(ToVariant(ch.recvQueue[i]))
    decreases n
  {
    if n > 0 {
      var ch' := Receive(ch).0;
      ReceiveNQueue(ch', n - 1);
      assert ch'.recvQueue == ch.recvQueue[1..];
    }
  }

  /** FIFO: on an open, empty channel, messages delivered by `incoming` come back
      from `receive()` in the order they arrived, converted by kind. */
  lemma ReceiveIsFifo(ch: QuicDataChannel, ms: seq<Message>)
    requires !ch.isClosed && |ch.recvQueue| == 0
    ensures AvailableAmount(IncomingAll(ch, ms)) == |ms|
    ensures var got := ReceiveN(IncomingAll(ch, ms), |ms|);
      |got| == |ms| && forall i :: 0 <= i < |ms| ==> got[i] == Some(ToVariant(ms[i]))
  {
    IncomingAllQueue(ch, ms);
    var q := IncomingAll(ch, ms);
    assert q.recvQueue == ms by { assert ch.recvQueue + ms == ms; }
    ReceiveNQueue(q, |ms|);
  }

  /** `assignStream(stream)`. */
  function AssignStream(ch: QuicDataChannel, s: uint16): (r: QuicDataChannel)
    ensures r.stream == Some(s) && r.(stream := ch.stream) == ch
  {
    ch.(stream := Some(s))
  }

  /** The base class's `open(transport)`: stores the transport and marks the
      channel open and not closed, reopening a closed channel. */
  function BaseOpen(ch: QuicDataChannel, t: Option<Transport.TransportRef>): (r: QuicDataChannel)
    ensures r.isOpen && !r.isClosed && r.transport == t
    ensures r.(isOpen := ch.isOpen, isClosed := ch.isClosed, transport := ch.transport) == ch
  {
    ch.(transport := t, isOpen := true, isClosed := false)
  }

  /** The handshake message an outgoing channel sends: built from its own label
      and protocol fields, not from the base class's. */
  function OpenMessage(ch: QuicDataChannel): (m: Message)
    ensures m.kind == String
    ensures m.data == Serialize(ch.ownLabel, ch.ownProtocol)
  {
    Message(String, Serialize(ch.ownLabel, ch.ownProtocol))
  }

  /** `open(transport)` of either variant. The outgoing one, after the base
      open, sends exactly one String handshake message when given a transport;
      the incoming one is the base open. `tr` is the given transport's state. */
  function Open(ch: QuicDataChannel, t: Option<Transport.TransportRef>, tr: Quic.QuicTransport): (r: (QuicDataChannel, Quic.QuicTransport))
    ensures r.0 == BaseOpen(ch, t)
    ensures ch.kind == Incoming || t.None? ==> r.1 == tr
    ensures ch.kind == Outgoing && t.Some? ==> r.1 == Quic.Send(tr, OpenMessage(ch)).1
  {
    var reopened := BaseOpen(ch, t);
    match ch.kind
    case Incoming => (reopened, tr)
    case Outgoing =>
      if t.Some? then (reopened, Quic.Send(tr, OpenMessage(ch)).1) else (reopened, tr)
  }

  /** The base class's `processOpenMessage`, which both final variants override:
      any non-empty payload opens the channel with whatever `lock()` returns,
      possibly no transport at all. */
  function BaseProcessOpenMessage(ch: QuicDataChannel, m: Option<Message>, alive: bool): (r: QuicDataChannel)
    ensures !IsOpenMessage(m) ==> r == ch
    ensures IsOpenMessage(m) ==> r.isOpen && !r.isClosed && r.transport == Lock(ch, alive)
    ensures r.(isOpen := ch.isOpen, isClosed := ch.isClosed, transport := ch.transport) == ch
  {
    if IsOpenMessage(m) then BaseOpen(ch, Lock(ch, alive)) else ch
  }

  /** `processOpenMessage` of either variant. The outgoing one ignores the message.
      The incoming one ignores null and empty payloads; for any other payload it
      takes label and protocol from a well-formed handshake (keeping its own when
      the marker or the colon is missing) and opens when the transport still
      exists, which also reopens a channel that was closed. The payload never
      reaches the receive queue, and the base class's label and protocol are
      never touched. */
  function ProcessOpenMessage(ch: QuicDataChannel, m: Option<Message>, alive: bool): (r: QuicDataChannel)
    ensures ch.kind == Outgoing || !IsOpenMessage(m) ==> r == ch
    ensures r.kind == ch.kind && r.baseLabel == ch.baseLabel && r.baseProtocol == ch.baseProtocol
    ensures r.recvQueue == ch.recvQueue && r.stream == ch.stream && r.transport == ch.transport
    ensures ch.kind == Incoming && IsOpenMessage(m) ==>
      (r.isOpen <==> ch.isOpen || Lock(ch, alive).Some?)
    ensures ch.kind == Incoming && IsOpenMessage(m) ==>
      (r.isClosed <==> ch.isClosed && Lock(ch, alive).None?)
    ensures ch.kind == Incoming && IsOpenMessage(m) ==> match ParseOpenPayload(m.value.data)
      case None => r.ownLabel == ch.ownLabel && r.ownProtocol == ch.ownProtocol
      case Some((l, p)) => r.ownLabel == l && r.ownProtocol == p
  {
    match ch.kind
    case Outgoing => ch
    case Incoming =>
      if !IsOpenMessage(m) then ch
      else
        var parsed := match ParseOpenPayload(m.value.data)
          case None => ch
          case Some((l, p)) => ch.(ownLabel := l, ownProtocol := p);
        match Lock(parsed, alive)
        case Some(t) => BaseOpen(parsed, Some(t))
        case None => parsed
  }

  /** An incoming channel opens on any non-empty payload while its transport
      exists, even one that carries no handshake at all. */
  lemma IncomingOpensOnAnyPayload(ch: QuicDataChannel, data: Bytes, kind: MessageType)
    requires ch.kind == Incoming && ch.transport.Some? && |data| > 0
    ensures ProcessOpenMessage(ch, Some(Message(kind, data)), true).isOpen
  {
  }

  /** An incoming channel given a well-formed handshake whose label has no colon
      learns exactly that label and protocol. */
  lemma IncomingLearnsHandshake(ch: QuicDataChannel, name: Bytes, protocol: Bytes)
    requires ch.kind == Incoming && COLON !in name
    ensures var r := ProcessOpenMessage(ch, Some(Message(String, Serialize(name, protocol))), true);
      r.ownLabel == name && r.ownProtocol == protocol && (ch.transport.Some? ==> r.isOpen)
  {
    RoundTrip(name, protocol);
  }

  /** End to end, as written: an outgoing channel created with any label and
      protocol, opened on a connected transport, queues the bare handshake (marker
      and one colon), and an incoming channel that processes it is left with an
      empty label and protocol. */
  lemma OutgoingHandshakeCarriesNoLabel(name: Bytes, protocol: Bytes, t: Transport.TransportRef,
                                        tr: Quic.QuicTransport, peer: QuicDataChannel)
    requires Quic.StateOf(tr) == Transport.Connected && peer.kind == Incoming
    ensures var (ch, tr') := Open(NewOutgoing(name, protocol), Some(t), tr);
      && ch.isOpen
      && tr'.sendQueue == tr.sendQueue + [Message(String, MARKER + [COLON])]
      && var got := ProcessOpenMessage(peer, Some(tr'.sendQueue[|tr.sendQueue|]), true);
         got.ownLabel == [] && got.ownProtocol == []
  {
    EmptyFieldsPayload();
  }

  /** Closing an open channel bound to a stream releases that stream in the
      transport's tables. */
  lemma CloseReleasesStream(ch: QuicDataChannel, tr: Quic.QuicTransport)
    requires !ch.isClosed && ch.transport.Some? && ch.stream.Some?
    ensures var (c, req) := Close(ch, true);
      && req == ch.stream && c.isClosed
      && req.value !in Quic.CloseStream(tr, req.value).0.connCtx.streamIds
  {
  }
}

=== FILE: handshake.dfy ===
/** The data-channel open handshake: the heuristic that picks a candidate open
    message, the serialiser `"QUIC_DATA_CHANNEL_OPEN:" + label + ":" + protocol`,
    and the parser that finds the marker, skips 23 bytes and splits at the first
    colon. */
module Handshake {
  import opened Wrappers
  import opened Bytes
  import opened Messages

  /** The marker `QUIC_DATA_CHANNEL_OPEN:`, colon included, as ASCII bytes. */
  const MARKER: Bytes :=
    [81, 85, 73, 67, 95, 68, 65, 84, 65, 95, 67, 72, 65, 78, 78, 69, 76, 95, 79, 80, 69, 78, 58]

  /** The literal 23 the parser skips by. */
  const MARKER_SKIP: nat := 23

  lemma MarkerSkipIsMarkerLength()
    ensures |MARKER| == MARKER_SKIP
  {
  }

  /** `IsOpenMessage`: any non-null message with a non-empty payload, whatever its
      kind and content; a null message never qualifies. */
  function IsOpenMessage(m: Option<Message>): (r: bool)
    ensures m.None? ==> !r
    ensures m.Some? ==> (r <==> Size(m.value) > 0)
  {
    m.Some? && |m.value.data| > 0
  }

  /** The open payload an outgoing channel builds from a label and a protocol. */
  function Serialize(name: Bytes, protocol: Bytes): (p: Bytes)
    ensures |p| == |MARKER| + |name| + 1 + |protocol|
    ensures OccursAt(p, MARKER, 0)
    ensures p[|MARKER|..|MARKER| + |name|] == name
    ensures p[|MARKER| + |name|] == COLON
    ensures p[|MARKER| + |name| + 1..] == protocol
  {
    MARKER + name + [COLON] + protocol
  }

  /** Splits at the first colon: the text before it and the text after it. */
  function SplitAtColon(s: Bytes): (r: Option<(Bytes, Bytes)>)
    ensures r.None? <==> COLON !in s
    ensures r.Some? ==> COLON !in r.value.0 && s == r.value.0 + [COLON] + r.value.1
  {
    match FindByte(s, COLON)
    case None => None
    case Some(k) =>
      assert s == s[..k] + [COLON] + s[k + 1..];
      Some((s[..k], s[k + 1..]))
  }

  /** The parser for any marker: find its first occurrence, skip its length and
      split what follows at the first colon. */
  function ParseAfter(data: Bytes, marker: Bytes): (r: Option<(Bytes, Bytes)>)
    ensures r.None? <==>
      (forall i: nat :: !OccursAt(data, marker, i)) ||
      (exists i: nat :: FirstOccurrence(data, marker, i) && COLON !in data[i + |marker|..])
    ensures r.Some? ==> COLON !in r.value.0
    ensures r.Some? ==> exists i: nat ::
      FirstOccurrence(data, marker, i) && data[i..] == marker + r.value.0 + [COLON] + r.value.1
  {
    match Find(data, marker)
    case None => None
    case Some(pos) =>
      FoundMarker(data, marker, pos);
      SplitAtColon(data[pos + |marker|..])
  }

  /** What the first occurrence of the marker decides about the parse. */
  lemma FoundMarker(data: Bytes, marker: Bytes, pos: nat)
    requires FirstOccurrence(data, marker, pos)
    ensures var r := SplitAtColon(data[pos + |marker|..]);
      && (r.None? <==>
           (forall i: nat :: !OccursAt(data, marker, i)) ||
           (exists i: nat :: FirstOccurrence(data, marker, i) && COLON !in data[i + |marker|..]))
      && (r.Some? ==> COLON !in r.value.0)
      && (r.Some? ==> exists i: nat ::
           FirstOccurrence(data, marker, i) && data[i..] == marker + r.value.0 + [COLON] + r.value.1)
  {
    var r := SplitAtColon(data[pos + |marker|..]);
    MarkerDecides(data, marker, pos);
    if r.Some? {
      MarkerLayout(data, marker, pos, r.value.0, r.value.1);
    }
  }

  /** The parse fails exactly when no colon follows the first marker. */
  lemma MarkerDecides(data: Bytes, marker: Bytes, pos: nat)
    requires FirstOccurrence(data, marker, pos)
    ensures ((forall i: nat :: !OccursAt(data, marker, i)) ||
             (exists i: nat :: FirstOccurrence(data, marker, i) && COLON !in data[i + |marker|..]))
      <==> COLON !in data[pos + |marker|..]
  {
    FirstOccurrenceUnique(data, marker, pos);
    assert OccursAt(data, marker, pos);
  }

  /** The text from the first marker on is the marker, the label, a colon and the
      protocol. */
  lemma MarkerLayout(data: Bytes, marker: Bytes, pos: nat, l: Bytes, p: Bytes)
    requires FirstOccurrence(data, marker, pos)
    requires data[pos + |marker|..] == l + [COLON] + p
    ensures exists i: nat :: FirstOccurrence(data, marker, i) && data[i..] == marker + l + [COLON] + p
  {
    assert data[pos..] == marker + data[pos + |marker|..];
    assert data[pos..] == marker + l + [COLON] + p;
  }

  /** The parse of an incoming open payload: `None` when the marker is missing or
      no colon follows it (the channel then keeps its label and protocol);
      otherwise the text after the first marker, split at its first colon. */
  function ParseOpenPayload(data: Bytes): (r: Option<(Bytes, Bytes)>)
    ensures r.None? <==>
      (forall i: nat :: !OccursAt(data, MARKER, i)) ||
      (exists i: nat :: FirstOccurrence(data, MARKER, i) && COLON !in data[i + MARKER_SKIP..])
    ensures r.Some? ==> COLON !in r.value.0
    ensures r.Some? ==> exists i: nat ::
      FirstOccurrence(data, MARKER, i) && data[i..] == MARKER + r.value.0 + [COLON] + r.value.1
  {
    MarkerSkipIsMarkerLength();
    ParseAfter(data, MARKER)
  }

  lemma FindIsFirst(s: Bytes, pat: Bytes, i: nat)
    requires FirstOccurrence(s, pat, i)
    ensures Find(s, pat) == Some(i)
  {
    FirstOccurrenceUnique(s, pat, i);
  }

  lemma FirstOccurrenceUnique(s: Bytes, pat: Bytes, i: nat)
    requires FirstOccurrence(s, pat, i)
    ensures forall j :: FirstOccurrence(s, pat, j) ==> j == i
  {
  }

  /** Round trip: the serialised payload of a label and a protocol parses back to
      exactly them if and only if the label has no colon (the protocol may have
      any number). */
  lemma {:induction false} RoundTrip(name: Bytes, protocol: Bytes)
    ensures ParseOpenPayload(Serialize(name, protocol)) == Some((name, protocol)) <==> COLON !in name
  {
    var p := Serialize(name, protocol);
    MarkerSkipIsMarkerLength();
    assert FirstOccurrence(p, MARKER, 0);
    if COLON !in name {
      RoundTripAt([], name, protocol);
      assert [] + p == p;
    }
  }

  /** The generic round trip: when the first marker is followed by a colon-free
      name, a colon and a protocol, the parse yields exactly that name and
      protocol. */
  lemma ParseAfterAt(data: Bytes, marker: Bytes, pos: nat, name: Bytes, protocol: Bytes)
    requires FirstOccurrence(data, marker, pos)
    requires COLON !in name
    requires data[pos + |marker|..] == name + [COLON] + protocol
    ensures ParseAfter(data, marker) == Some((name, protocol))
  {
    FindIsFirst(data, marker, pos);
    assert Find(data, marker) == Some(pos);
    assert ParseAfter(data, marker) == SplitAtColon(data[pos + |marker|..]);
    SplitAtColonOf(name, protocol);
  }

  /** Splitting a colon-free name, a colon and a protocol at the first colon gives
      back the name and the protocol. */
  lemma SplitAtColonOf(name: Bytes, protocol: Bytes)
    requires COLON !in name
    ensures SplitAtColon(name + [COLON] + protocol) == Some((name, protocol))
  {
    var s := name + [COLON] + protocol;
    assert s[..|name|] == name;
    assert s[|name|] == COLON;
    assert FindByte(s, COLON) == Some(|name|);
    assert s[|name| + 1..] == protocol;
  }

  /** The marker may sit anywhere: after any prefix in which it does not start,
      the payload still parses back to the label and protocol. */
  lemma RoundTripAt(prefix: Bytes, name: Bytes, protocol: Bytes)
    requires COLON !in name
    requires forall j :: 0 <= j < |prefix| ==> !OccursAt(prefix + Serialize(name, protocol), MARKER, j)
    ensures ParseOpenPayload(prefix + Serialize(name, protocol)) == Some((name, protocol))
  {
    var data := prefix + Serialize(name, protocol);
    var pos := |prefix|;
    MarkerSkipIsMarkerLength();
    assert data[pos..] == Serialize(name, protocol);
    assert OccursAt(data, MARKER, pos);
    assert data[pos + |MARKER|..] == name + [COLON] + protocol;
    ParseAfterAt(data, MARKER, pos, name, protocol);
  }

  /** An outgoing channel whose own label and protocol fields were never assigned
      sends the bare marker followed by one colon, which parses to an empty label
      and an empty protocol. */
  lemma EmptyFieldsPayload()
    ensures Serialize([], []) == MARKER + [COLON]
    ensures |Serialize([], [])| == 24
    ensures ParseOpenPayload(Serialize([], [])) == Some(([], []))
  {
    EmptyFieldsLayout();
    RoundTrip([], []);
  }

  lemma EmptyFieldsLayout()
    ensures Serialize([], []) == MARKER + [COLON]
    ensures |Serialize([], [])| == 24
  {
    MarkerSkipIsMarkerLength();
  }
}

=== FILE: messages.dfy ===
/** The payload handle the transport and the channels pass around. `message.hpp`
    is not part of this model; only the fields the core reads are kept. */
module Messages {
  import opened Bytes

  /** The kinds the core distinguishes. `Control` stands for every kind other than
      String and Binary, which the core never builds. */
  datatype MessageType = Binary | String | Control

  datatype Message = Message(kind: MessageType, data: Bytes)

  /** `message->size()`. */
  function Size(m: Message): nat
  {
    |m.data|
  }

  /** Sum of the sizes of a sequence of messages. */
  function TotalSize(ms: seq<Message>): nat
  {
    if |ms| == 0 then 0 else TotalSize(ms[..|ms| - 1]) + Size(ms[|ms| - 1])
  }

  /** The application-facing value a received message is turned into: a
      `std::string` or a `binary` (`message_variant`). */
  datatype MessageVariant = Text(text: Bytes) | Bin(bytes: Bytes)
}

=== FILE: numeric.dfy ===
/** The fixed-width machine integers the transport uses, with their wrap-around
    written out: Dafny's `int` is unbounded, C++'s are not. */
module Numeric {

  const UINT16_LIMIT: int := 0x1_0000
  const SIZE_LIMIT: int := 0x1_0000_0000_0000_0000
  const INT32_MIN: int := -0x8000_0000
  const INT32_MAX: int := 0x7FFF_FFFF

  type uint16 = x: int | 0 <= x < 0x1_0000
  type uint32 = x: int | 0 <= x < 0x1_0000_0000
  /** `size_t` and `ptrdiff_t` on a 64-bit target. */
  type size_t = x: int | 0 <= x < 0x1_0000_0000_0000_0000
  type ptrdiff_t = x: int | -0x8000_0000_0000_0000 <= x < 0x8000_0000_0000_0000
  type int32 = x: int | -0x8000_0000 <= x < 0x8000_0000

  /** `uint16_t` post-increment: 65535 + 1 wraps to 0. */
  function Inc16(x: uint16): (r: uint16)
    ensures x < UINT16_LIMIT - 1 ==> r == x + 1
    ensures x == UINT16_LIMIT - 1 ==> r == 0
  {
    (x + 1) % UINT16_LIMIT
  }

  /** Conversion of an `unsigned int` to `uint16_t`: keeps the low 16 bits, so
      values 65536 apart convert alike. */
  function ToUint16(x: uint32): (r: uint16)
    ensures x < UINT16_LIMIT ==> r == x
  {
    x % UINT16_LIMIT
  }

  /** Values 65536 apart convert to the same `uint16_t`. */
  lemma ToUint16Periodic(x: uint16, k: nat)
    requires k < UINT16_LIMIT
    ensures ToUint16(x + k * UINT16_LIMIT) == x
  {
  }

  /** `size_t += delta`: the sum taken modulo 2^64. A `size_t` or `ptrdiff_t`
      delta wraps it at most once, in either direction. */
  function AddSize(a: size_t, delta: int): (r: size_t)
    ensures 0 <= a + delta < SIZE_LIMIT ==> r == a + delta
    ensures -SIZE_LIMIT <= a + delta < 0 ==> r == a + delta + SIZE_LIMIT
    ensures SIZE_LIMIT <= a + delta < 2 * SIZE_LIMIT ==> r == a + delta - SIZE_LIMIT
  {
    (a + delta) % SIZE_LIMIT
  }

  /** `++` on a `std::atomic<int>`: wraps from the largest to the smallest value. */
  function Inc32(x: int32): (r: int32)
    ensures x < INT32_MAX ==> r == x + 1
    ensures x == INT32_MAX ==> r == INT32_MIN
  {
    if x == INT32_MAX then INT32_MIN else x + 1
  }

  /** `--` on a `std::atomic<int>`: wraps from the smallest to the largest value. */
  function Dec32(x: int32): (r: int32)
    ensures x > INT32_MIN ==> r == x - 1
    ensures x == INT32_MIN ==> r == INT32_MAX
  {
    if x == INT32_MIN then INT32_MAX else x - 1
  }

  /** Adding a delta and then taking it away again restores a size_t, whether or
      not the first addition wrapped. */
  lemma AddSizeCancels(a: size_t, delta: int)
    ensures AddSize(AddSize(a, delta), -delta) == a
  {
  }
}

=== FILE: quic_global.dfy ===
/** The process-wide library initialisation flag behind `QuicTransport::Init` and
    `QuicTransport::Cleanup`. The library calls themselves are outside the model;
    the results say whether they were made. */
module QuicGlobal {
  import opened Wrappers

  /** The flag after a call, whether the library's global init (or cleanup) was
      called, and the exception thrown, if any. */
  datatype GlobalStep = GlobalStep(initialized: bool, libraryCalled: bool, error: Option<string>)

  /** `Init()`: a no-op once initialised; otherwise initialises the library, and
      sets the flag unless the library reports failure, which throws. */
  function Init(initialized: bool, libraryInitOk: bool): (r: GlobalStep)
    ensures initialized ==> r == GlobalStep(true, false, None)
    ensures !initialized ==> r.libraryCalled
    ensures r.error.Some? <==> !initialized && !libraryInitOk
    ensures r.initialized <==> r.error.None?
  {
    if initialized then GlobalStep(true, false, None)
    else if !libraryInitOk then GlobalStep(false, true, Some("Failed to initialize lsquic library"))
    else GlobalStep(true, true, None)
  }

  /** `Cleanup()`: a no-op unless initialised; otherwise cleans the library up and
      clears the flag. */
  function Cleanup(initialized: bool): (r: GlobalStep)
    ensures !r.initialized && r.error.None?
    ensures r.libraryCalled <==> initialized
  {
    GlobalStep(false, initialized, None)
  }

  /** A second `Init` after a successful one calls nothing and changes nothing. */
  lemma InitIdempotent(initialized: bool, ok1: bool, ok2: bool)
    requires Init(initialized, ok1).error.None?
    ensures Init(Init(initialized, ok1).initialized, ok2) == GlobalStep(true, false, None)
  {
  }

  /** `Init` then `Cleanup` returns to the uninitialised state, from which the next
      `Init` calls the library again. */
  lemma InitCleanupInit(ok: bool)
    ensures var c := Cleanup(Init(false, true).initialized);
      && !c.initialized && c.libraryCalled
      && Init(c.initialized, ok).libraryCalled
  {
  }
}

=== FILE: quic_transport.dfy ===
/** `QuicTransport`: the bookkeeping around the QUIC engine. The engine itself is
    not modelled; connections and streams are opaque handles, engine callbacks are
    functions applied to the transport's state, and calls into the engine or into
    the lower transport are returned as outputs. */
module Quic {
  import opened Wrappers
  import opened Numeric
  import opened Bytes
  import opened Messages
  import opened Transport
  import opened QuicTypes
  import opened StreamTable
  import opened Coalescer

  datatype QuicTransport = QuicTransport(
    base: TransportBase,
    maxMessageSize: size_t,
    settings: QuicSettings,
    connCtx: ConnCtx,
    sendQueue: seq<Message>,
    sendShutdown: bool,
    sched: Scheduler,
    bufferedAmount: map<uint16, size_t>,
    hasAmountCallback: bool,
    bytesSent: size_t,
    bytesReceived: size_t)

  function StateOf(tr: QuicTransport): State
  {
    tr.base.state
  }

  /** The constructor. Engine creation is outside the model: `engineCreated` is its
      outcome, and a failure throws, so no transport exists. */
  function NewQuicTransport(
    lower: Option<TransportRef>, maxMessageSize: Option<size_t>, settings: QuicSettings,
    hasAmountCallback: bool, hasStateCallback: bool, engineCreated: bool
  ): (r: Result<QuicTransport, string>)
    ensures r.Failure? <==> !engineCreated
    ensures r.Success? ==> var tr := r.value;
      && StateOf(tr) == Disconnected && tr.base == Transport.NewTransport(lower, hasStateCallback)
      && tr.hasAmountCallback == hasAmountCallback
      && tr.maxMessageSize == (if maxMessageSize.Some? then maxMessageSize.value else DEFAULT_MAX_MESSAGE_SIZE)
      && tr.settings == settings
      && tr.connCtx == NewConnCtx() && |tr.sendQueue| == 0 && !tr.sendShutdown
      && tr.sched == NewScheduler() && |tr.bufferedAmount| == 0
      && tr.bytesSent == 0 && tr.bytesReceived == 0
  {
    if !engineCreated then Failure("Failed to create lsquic engine")
    else
      var size := match maxMessageSize case Some(n) => n case None => DEFAULT_MAX_MESSAGE_SIZE;
      Success(QuicTransport(NewTransport(lower, hasStateCallback), size, settings, NewConnCtx(),
        [], false, NewScheduler(), map[], hasAmountCallback, 0, 0))
  }

  /** `start()`: from Disconnected, moves to Connecting and then, through the
      placeholder `connect()`, to Connected; from any other state does nothing.
      Also returns the states passed to `changeState`, in order. */
  function Start(tr: QuicTransport): (r: (QuicTransport, seq<State>))
    ensures StateOf(tr) == Disconnected ==> StateOf(r.0) == Connected && r.1 == [Connecting, Connected]
    ensures StateOf(tr) != Disconnected ==> r == (tr, [])
    ensures r.0.(base := tr.base) == tr && r.0.base.lower == tr.base.lower
      && r.0.base.hasStateCallback == tr.base.hasStateCallback
  {
    if StateOf(tr) == Disconnected then
      var connecting := tr.(base := ChangeState(tr.base, Connecting));
      (Connect(connecting), [Connecting, Connected])
    else (tr, [])
  }

  /** `connect()`: a placeholder that declares the connection established. */
  function Connect(tr: QuicTransport): (r: QuicTransport)
    ensures StateOf(r) == Connected && r.(base := tr.base) == tr
    ensures r.base.lower == tr.base.lower && r.base.hasStateCallback == tr.base.hasStateCallback
  {
    tr.(base := ChangeState(tr.base, Connected))
  }

  /** `stop()`: whatever the state, the transport ends Disconnected (closing the
      native connection is an engine call and not modelled). */
  function Stop(tr: QuicTransport): (r: QuicTransport)
    ensures StateOf(r) == Disconnected
    ensures r.(base := tr.base) == tr
    ensures r.base.lower == tr.base.lower && r.base.hasStateCallback == tr.base.hasStateCallback
  {
    tr.(base := ChangeState(tr.base, Disconnected))
  }

  /** `close()`: differs from `stop()` only in not clearing the native connection
      pointer, which the model does not hold. */
  function Close(tr: QuicTransport): (r: QuicTransport)
    ensures StateOf(r) == Disconnected
    ensures r == Stop(tr)
  {
    Stop(tr)
  }

  /** `send(message)`: refused, with nothing changed, unless Connected; otherwise
      the message joins the back of the send queue and a flush is requested. */
  function Send(tr: QuicTransport, m: Message): (r: (bool, QuicTransport))
    ensures r.0 <==> StateOf(tr) == Connected
    ensures !r.0 ==> r.1 == tr
    ensures r.0 ==> r.1.sendQueue == tr.sendQueue + [m] && r.1.sched == EnqueueFlush(tr.sched)
    ensures r.0 ==> r.1.(sendQueue := tr.sendQueue, sched := tr.sched) == tr
  {
    if StateOf(tr) != Connected then (false, tr)
    else (true, tr.(sendQueue := tr.sendQueue + [m], sched := EnqueueFlush(tr.sched)))
  }

  /** `bytesSent` after each message of `ms` has been added to it in turn. */
  function AddSizes(b: size_t, ms: seq<Message>): size_t
  {
    if |ms| == 0 then b else AddSize(AddSizes(b, ms[..|ms| - 1]), Size(ms[|ms| - 1]))
  }

  /** Without wrap-around, the counter grows by the total size of the messages. */
  lemma {:induction false} AddSizesNoWrap(b: size_t, ms: seq<Message>)
    requires b + TotalSize(ms) < SIZE_LIMIT
    ensures AddSizes(b, ms) == b + TotalSize(ms)
  {
    if |ms| > 0 {
      AddSizesNoWrap(b, ms[..|ms| - 1]);
    }
  }

  /** `trySendMessage`: succeeds exactly when the connection context holds a
      native connection, and then counts the message's size in `bytesSent`. */
  function TrySendMessage(tr: QuicTransport, m: Message): (r: (bool, QuicTransport))
    ensures r.0 <==> tr.connCtx.hasConn
    ensures r.0 ==> r.1 == tr.(bytesSent := AddSize(tr.bytesSent, Size(m)))
    ensures !r.0 ==> r.1 == tr
  {
    if tr.connCtx.hasConn then (true, tr.(bytesSent := AddSize(tr.bytesSent, Size(m))))
    else (false, tr)
  }

  /** The effect of one flush pass, stated as a whole: with a connection and no
      shutdown the queue is sent entirely, in order; otherwise nothing is sent.
      Returns whether the queue is empty afterwards, the new state and the
      messages sent in order. */
  function Drain(tr: QuicTransport): (r: (bool, QuicTransport, seq<Message>))
    ensures r.0 <==> |r.1.sendQueue| == 0
    ensures r.2 + r.1.sendQueue == tr.sendQueue
    ensures r.1 == tr.(sendQueue := r.1.sendQueue, bytesSent := AddSizes(tr.bytesSent, r.2))
    ensures |tr.sendQueue| == 0 ==> r == (true, tr, [])
    ensures tr.connCtx.hasConn && !tr.sendShutdown ==> r.2 == tr.sendQueue
    ensures !tr.connCtx.hasConn || tr.sendShutdown ==> r.2 == []
  {
    if tr.connCtx.hasConn && !tr.sendShutdown then
      (true, tr.(sendQueue := [], bytesSent := AddSizes(tr.bytesSent, tr.sendQueue)), tr.sendQueue)
    else
      (|tr.sendQueue| == 0, tr, [])
  }

  /** `trySendQueue` (and `flush`, which only calls it): sends from the head of
      the queue in FIFO order, removing each message sent, and stops at the first
      failure with that message still at the head. */
  method TrySendQueue(tr: QuicTransport) returns (empty: bool, tr': QuicTransport, sent: seq<Message>)
    ensures sent + tr'.sendQueue == tr.sendQueue
    ensures empty <==> |tr'.sendQueue| == 0
    ensures |tr'.sendQueue| > 0 ==> !TrySendMessage(tr', tr'.sendQueue[0]).0 || tr.sendShutdown
    ensures tr'.bytesSent == AddSizes(tr.bytesSent, sent)
    ensures tr' == tr.(sendQueue := tr'.sendQueue, bytesSent := tr'.bytesSent)
    ensures (empty, tr', sent) == Drain(tr)
  {
    tr' := tr;
    sent := [];
    while |tr'.sendQueue| > 0 && !tr'.sendShutdown
      invariant sent + tr'.sendQueue == tr.sendQueue
      invariant tr' == tr.(sendQueue := tr'.sendQueue, bytesSent := tr'.bytesSent)
      invariant tr'.bytesSent == AddSizes(tr.bytesSent, sent)
      invariant !tr.connCtx.hasConn || tr.sendShutdown ==> sent == []
      decreases |tr'.sendQueue|
    {
      var m := tr'.sendQueue[0];
      var (ok, next) := TrySendMessage(tr', m);
      if !ok {
        break;
      }
      assert (sent + [m])[..|sent|] == sent;
      tr' := next.(sendQueue := next.sendQueue[1..]);
      sent := sent + [m];
    }
    empty := |tr'.sendQueue| == 0;
    if tr.connCtx.hasConn && !tr.sendShutdown {
      assert sent == tr.sendQueue;
    } else {
      assert tr' == tr;
    }
  }

  /** The processor runs the task at the head of its queue: a flush task runs a
      flush pass, a receive task runs the empty `doRecv`; either then decrements
      its own counter. Returns the task run and the messages the pass sent. */
  method RunNextTask(tr: QuicTransport) returns (tr': QuicTransport, ran: Option<Task>, sent: seq<Message>)
    ensures ran == PopTask(tr.sched).1
    ensures tr'.sched == PopTask(tr.sched).0
    ensures ran == Some(FlushTask) ==> tr'.(sched := tr.sched) == Drain(tr).1 && sent == Drain(tr).2
    ensures ran != Some(FlushTask) ==> tr' == tr.(sched := tr'.sched) && sent == []
  {
    var (sched', t) := PopTask(tr.sched);
    ran := t;
    sent := [];
    tr' := tr;
    if t == Some(FlushTask) {
      var _, drained, s := TrySendQueue(tr);
      tr' := drained;
      sent := s;
    }
    tr' := tr'.(sched := sched');
  }

  /** `closeStream(stream)` on the connection context's tables. */
  function CloseStream(tr: QuicTransport, stream: uint32): (r: (QuicTransport, Option<StreamHandle>))
    ensures r.0 == tr.(connCtx := StreamTable.CloseStream(tr.connCtx, stream).0)
    ensures r.1 == StreamTable.CloseStream(tr.connCtx, stream).1
    ensures ToUint16(stream) !in r.0.connCtx.streamIds
  {
    var (c, h) := StreamTable.CloseStream(tr.connCtx, stream);
    (tr.(connCtx := c), h)
  }

  /** `sendReset(streamId)`: closes a known stream's native handle, changes nothing. */
  function SendReset(tr: QuicTransport, id: uint16): (h: Option<StreamHandle>)
    ensures h.Some? <==> id in tr.connCtx.streamIds
    ensures h.Some? ==> tr.connCtx.streamIds[id] == h.value
  {
    StreamTable.SendReset(tr.connCtx, id).1
  }

  /** `maxStream()`: the configured outbound stream limit (not the inbound one). */
  function MaxStream(tr: QuicTransport): (n: uint32)
    ensures n == tr.settings.maxStreamsOut
  {
    tr.settings.maxStreamsOut
  }

  /** A transport built with the default settings reports 100 streams, whatever
      else it was given. */
  lemma DefaultMaxStream(lower: Option<TransportRef>, size: Option<size_t>, amountCb: bool, stateCb: bool)
    ensures var r := NewQuicTransport(lower, size, DefaultSettings(), amountCb, stateCb, true);
      r.Success? && MaxStream(r.value) == 100
  {
  }

  /** `clearStats()`: both byte counters back to 0, nothing else changes. */
  function ClearStats(tr: QuicTransport): (r: QuicTransport)
    ensures r.bytesSent == 0 && r.bytesReceived == 0
    ensures r.(bytesSent := tr.bytesSent, bytesReceived := tr.bytesReceived) == tr
  {
    tr.(bytesSent := 0, bytesReceived := 0)
  }

  /** `rtt()`: the engine's round-trip estimate (microseconds, when the engine can
      provide one) in whole milliseconds, truncated. */
  function Rtt(infoRttMicros: Option<nat>): (r: Option<nat>)
    ensures r.Some? <==> infoRttMicros.Some?
    ensures r.Some? ==> r.value * 1000 <= infoRttMicros.value < (r.value + 1) * 1000
  {
    match infoRttMicros
    case None => None
    case Some(us) => Some(us / 1000)
  }

  /** `updateBufferedAmount(streamId, delta)`: the stream's amount (0 when absent)
      plus delta, with `size_t` wrap-around; the new amount is reported to the
      callback, if one is set. */
  function UpdateBufferedAmount(tr: QuicTransport, id: uint16, delta: ptrdiff_t): (r: (QuicTransport, Option<(uint16, size_t)>))
    ensures var before := if id in tr.bufferedAmount then tr.bufferedAmount[id] else 0;
      && id in r.0.bufferedAmount
      && r.0.bufferedAmount[id] == AddSize(before, delta)
      && (0 <= before + delta < SIZE_LIMIT ==> r.0.bufferedAmount[id] == before + delta)
    ensures forall k :: k != id ==> (k in r.0.bufferedAmount <==> k in tr.bufferedAmount)
    ensures forall k :: k != id && k in tr.bufferedAmount ==> r.0.bufferedAmount[k] == tr.bufferedAmount[k]
    ensures r.1.Some? <==> tr.hasAmountCallback
    ensures r.1.Some? ==> r.1.value == (id, r.0.bufferedAmount[id])
    ensures r.0.(bufferedAmount := tr.bufferedAmount) == tr
  {
    var before := if id in tr.bufferedAmount then tr.bufferedAmount[id] else 0;
    var amount := AddSize(before, delta);
    var tr' := tr.(bufferedAmount := tr.bufferedAmount[id := amount]);
    (tr', if tr.hasAmountCallback then Some((id, amount)) else None)
  }

  /** A change of `size` followed by its opposite leaves the stream's amount where
      it was (0 for a stream with no entry yet), wrapped or not, and reports the
      restored amount. Only the most negative `ptrdiff_t` has no opposite. */
  lemma BufferedAmountNetZero(tr: QuicTransport, id: uint16, size: ptrdiff_t)
    requires size > -0x8000_0000_0000_0000
    ensures var (t1, n1) := UpdateBufferedAmount(tr, id, size);
      var (t2, n2) := UpdateBufferedAmount(t1, id, -size);
      && t2.bufferedAmount[id] == (if id in tr.bufferedAmount then tr.bufferedAmount[id] else 0)
      && (tr.hasAmountCallback ==> n2 == Some((id, t2.bufferedAmount[id])))
  {
    var before := if id in tr.bufferedAmount then tr.bufferedAmount[id] else 0;
    AddSizeCancels(before, size);
  }

  /** `processData`: the bytes become a Binary message passed up (returned) and
      count in `bytesReceived`; the stream id and tag do not matter. */
  function ProcessData(tr: QuicTransport, data: Bytes, id: uint16, tag: StreamType): (r: (QuicTransport, Message))
    ensures r.1 == Message(Binary, data)
    ensures r.0 == tr.(bytesReceived := AddSize(tr.bytesReceived, |data|))
    ensures tr.bytesReceived + |data| < SIZE_LIMIT ==> r.0.bytesReceived == tr.bytesReceived + |data|
  {
    (tr.(bytesReceived := AddSize(tr.bytesReceived, |data|)), Message(Binary, data))
  }

  /** Engine callback `on_stream_read`: one read of at most 4096 bytes (an empty
      chunk stands for a read that returned 0 or failed); a non-empty chunk goes
      through `processData` with the stream's logical id and the Binary tag. */
  function OnStreamRead(tr: QuicTransport, h: StreamHandle, chunk: Bytes): (r: (QuicTransport, Option<Message>))
    requires h in tr.connCtx.contexts && |chunk| <= 4096
    ensures |chunk| == 0 ==> r == (tr, None)
    ensures |chunk| > 0 ==> r.1 == Some(Message(Binary, chunk))
    ensures |chunk| > 0 ==> r.0.bytesReceived == AddSize(tr.bytesReceived, |chunk|)
    ensures r.0.(bytesReceived := tr.bytesReceived) == tr
  {
    if |chunk| == 0 then (tr, None)
    else
      var (tr', m) := ProcessData(tr, chunk, tr.connCtx.contexts[h].streamId, StreamBinary);
      (tr', Some(m))
  }

  /** Engine callback `on_new_conn`: the connection context records the
      connection, and the transport becomes Connected. */
  function OnNewConn(tr: QuicTransport): (r: QuicTransport)
    ensures StateOf(r) == Connected && r.connCtx.hasConn
    ensures r.(base := tr.base, connCtx := tr.connCtx) == tr
    ensures r.connCtx.(hasConn := tr.connCtx.hasConn) == tr.connCtx
    ensures r.base.lower == tr.base.lower && r.base.hasStateCallback == tr.base.hasStateCallback
  {
    tr.(connCtx := tr.connCtx.(hasConn := true), base := ChangeState(tr.base, Connected))
  }

  /** Engine callback `on_conn_closed`: Disconnected when the engine hands back the
      connection context, otherwise nothing. The context keeps its connection. */
  function OnConnClosed(tr: QuicTransport, ctxFound: bool): (r: QuicTransport)
    ensures ctxFound ==> StateOf(r) == Disconnected
    ensures !ctxFound ==> r == tr
    ensures r.(base := tr.base) == tr
    ensures r.base.lower == tr.base.lower && r.base.hasStateCallback == tr.base.hasStateCallback
  {
    if ctxFound then tr.(base := ChangeState(tr.base, Disconnected)) else tr
  }

  /** Handshake outcomes the engine reports. */
  datatype HskStatus = HskFail | HskOk | HskResumedOk | HskResumedFail

  /** Engine callback `on_hsk_done`: OK or RESUMED_OK gives Connected, any other
      outcome Failed; without a connection context nothing happens. */
  function OnHskDone(tr: QuicTransport, ctxFound: bool, s: HskStatus): (r: QuicTransport)
    ensures ctxFound ==> (StateOf(r) == Connected <==> s == HskOk || s == HskResumedOk)
    ensures ctxFound ==> (StateOf(r) == Failed <==> s == HskFail || s == HskResumedFail)
    ensures !ctxFound ==> r == tr
    ensures r.(base := tr.base) == tr
    ensures r.base.lower == tr.base.lower && r.base.hasStateCallback == tr.base.hasStateCallback
  {
    if !ctxFound then tr
    else match s
      case HskOk | HskResumedOk => tr.(base := ChangeState(tr.base, Connected))
      case HskFail | HskResumedFail => tr.(base := ChangeState(tr.base, Failed))
  }

  /** Engine callback `on_new_stream`, on the connection context's tables. */
  function OnNewStream(tr: QuicTransport, h: StreamHandle): (r: (QuicTransport, StreamCtx))
    ensures r.0 == tr.(connCtx := StreamTable.OnNewStream(tr.connCtx, h).0)
    ensures r.1.streamId == tr.connCtx.nextStreamId
    ensures r.0.connCtx.streams[h] == r.1.streamId && r.0.connCtx.streamIds[r.1.streamId] == h
    ensures h in r.0.connCtx.contexts && r.0.connCtx.contexts[h] == r.1
    ensures forall h' :: h' != h ==> (h' in r.0.connCtx.contexts <==> h' in tr.connCtx.contexts)
    ensures forall h' :: h' != h && h' in tr.connCtx.contexts ==>
      r.0.connCtx.contexts[h'] == tr.connCtx.contexts[h']
  {
    var (c, ctx) := StreamTable.OnNewStream(tr.connCtx, h);
    (tr.(connCtx := c), ctx)
  }

  /** Engine callback `on_stream_close`: the stream context goes; the id maps,
      the connection context's other fields and every other stream's context stay. */
  function OnStreamClose(tr: QuicTransport, h: StreamHandle): (r: QuicTransport)
    ensures r.connCtx == tr.connCtx.(contexts := r.connCtx.contexts)
    ensures h !in r.connCtx.contexts && r.connCtx.contexts.Keys == tr.connCtx.contexts.Keys - {h}
    ensures forall k :: k in r.connCtx.contexts ==> r.connCtx.contexts[k] == tr.connCtx.contexts[k]
    ensures r.(connCtx := tr.connCtx) == tr
  {
    tr.(connCtx := StreamTable.OnStreamClose(tr.connCtx, h))
  }

  /** One outgoing packet's segments (the `iovec`s of an `lsquic_out_spec`). */
  type OutSpec = seq<Bytes>

  function TotalLen(iov: OutSpec): nat
  {
    if |iov| == 0 then 0 else TotalLen(iov[..|iov| - 1]) + |iov[|iov| - 1]|
  }

  /** The segments joined in order. */
  function Concat(iov: OutSpec): Bytes
  {
    if |iov| == 0 then [] else Concat(iov[..|iov| - 1]) + iov[|iov| - 1]
  }

  lemma {:induction false} ConcatLength(iov: OutSpec)
    ensures |Concat(iov)| == TotalLen(iov)
  {
    if |iov| > 0 {
      ConcatLength(iov[..|iov| - 1]);
    }
  }

  /** Joining the first `k` segments gives a prefix of joining them all. */
  lemma {:induction false} ConcatPrefix(iov: OutSpec, k: nat)
    requires k <= |iov|
    ensures Concat(iov[..k]) <= Concat(iov)
  {
    if k < |iov| {
      var init := iov[..|iov| - 1];
      ConcatPrefix(init, k);
      assert init[..k] == iov[..k];
    } else {
      assert iov[..k] == iov;
    }
  }

  /** The joined segments are as long as all of them together, and segment `j` sits
      right after the segments before it. */
  lemma ConcatLayout(iov: OutSpec)
    ensures |Concat(iov)| == TotalLen(iov)
    ensures forall j :: 0 <= j < |iov| ==>
      TotalLen(iov[..j]) + |iov[j]| <= |Concat(iov)| &&
      Concat(iov)[TotalLen(iov[..j])..TotalLen(iov[..j]) + |iov[j]|] == iov[j]
  {
    ConcatLength(iov);
    forall j | 0 <= j < |iov|
      ensures TotalLen(iov[..j]) + |iov[j]| <= |Concat(iov)|
      ensures Concat(iov)[TotalLen(iov[..j])..TotalLen(iov[..j]) + |iov[j]|] == iov[j]
    {
      ConcatSegment(iov, j);
    }
  }

  lemma ConcatSegment(iov: OutSpec, j: nat)
    requires j < |iov|
    ensures TotalLen(iov[..j]) + |iov[j]| <= |Concat(iov)|
    ensures Concat(iov)[TotalLen(iov[..j])..TotalLen(iov[..j]) + |iov[j]|] == iov[j]
  {
    var upto := iov[..j + 1];
    assert upto[..j] == iov[..j];
    assert Concat(upto) == Concat(iov[..j]) + iov[j];
    ConcatLength(iov[..j]);
    ConcatPrefix(iov, j + 1);
    var start := TotalLen(iov[..j]);
    assert Concat(iov)[start..start + |iov[j]|] == Concat(upto)[start..start + |iov[j]|];
  }

  /** The two loops of `send_packets_out` for one spec: sum the segment lengths,
      then append every segment to one buffer. */
  method FlattenSpec(iov: OutSpec) returns (packet: Bytes, totalLen: nat)
    ensures totalLen == |packet| == TotalLen(iov)
    ensures packet == Concat(iov)
    ensures forall j :: 0 <= j < |iov| ==>
      TotalLen(iov[..j]) + |iov[j]| <= |packet| &&
      packet[TotalLen(iov[..j])..TotalLen(iov[..j]) + |iov[j]|] == iov[j]
  {
    totalLen := 0;
    var j := 0;
    while j < |iov|
      invariant 0 <= j <= |iov|
      invariant totalLen == TotalLen(iov[..j])
    {
      assert iov[..j + 1][..j] == iov[..j];
      totalLen := totalLen + |iov[j]|;
      j := j + 1;
    }
    assert iov[..|iov|] == iov;
    packet := [];
    j := 0;
    while j < |iov|
      invariant 0 <= j <= |iov|
      invariant packet == Concat(iov[..j])
    {
      assert iov[..j + 1][..j] == iov[..j];
      packet := packet + iov[j];
      j := j + 1;
    }
    ConcatLayout(iov);
  }

  /** Engine callback `send_packets_out`: one Binary message per spec, carrying the
      spec's segments joined in order, each handed to `outgoing`, which passes it
      to the lower transport when there is one. Always returns 0. */
  method SendPacketsOut(tr: QuicTransport, specs: seq<OutSpec>) returns (rc: int, out: seq<Message>, toLower: seq<Message>)
    ensures rc == 0
    ensures |out| == |specs|
    ensures forall i :: 0 <= i < |specs| ==> out[i].kind == Binary && out[i].data == Concat(specs[i])
    ensures forall i :: 0 <= i < |specs| ==> Size(out[i]) == TotalLen(specs[i])
    ensures toLower == (if tr.base.lower.Some? then out else [])
  {
    out := [];
    var i := 0;
    while i < |specs|
      invariant 0 <= i <= |specs|
      invariant |out| == i
      invariant forall k :: 0 <= k < i ==> out[k].kind == Binary && out[k].data == Concat(specs[k])
      invariant forall k :: 0 <= k < i ==> Size(out[k]) == TotalLen(specs[k])
    {
      var packet, _ := FlattenSpec(specs[i]);
      out := out + [Message(Binary, packet)];
      i := i + 1;
    }
    toLower := if tr.base.lower.Some? then out else [];
    rc := 0;
  }

  /** `send` for each message in turn; the results are dropped. */
  function SendAll(tr: QuicTransport, ms: seq<Message>): QuicTransport
    decreases |ms|
  {
    if |ms| == 0 then tr else SendAll(Send(tr, ms[0]).1, ms[1..])
  }

  /** While Connected, every `send` is accepted and the queue grows by exactly the
      messages sent, in order; nothing but the queue and the scheduler changes. */
  lemma {:induction false} SendAllQueues(tr: QuicTransport, ms: seq<Message>)
    requires StateOf(tr) == Connected
    ensures SendAll(tr, ms).sendQueue == tr.sendQueue + ms
    ensures SendAll(tr, ms).(sendQueue := tr.sendQueue, sched := tr.sched) == tr
    decreases |ms|
  {
    if |ms| > 0 {
      SendAllQueues(Send(tr, ms[0]).1, ms[1..]);
      assert tr.sendQueue + [ms[0]] + ms[1..] == tr.sendQueue + ms;
    }
  }

  /** Messages sent while Connected leave the send queue, once a flush pass runs
      with a connection, in the order they were sent, none skipped and none
      repeated; the queue ends empty and `bytesSent` grows by their total size
      (below 2^64). The payloads themselves are never written. */
  lemma SendThenFlushDeliversInOrder(tr: QuicTransport, ms: seq<Message>)
    requires StateOf(tr) == Connected && tr.connCtx.hasConn && !tr.sendShutdown
    requires |tr.sendQueue| == 0
    requires tr.bytesSent + TotalSize(ms) < SIZE_LIMIT
    ensures var (empty, tr', sent) := Drain(SendAll(tr, ms));
      empty && sent == ms && tr'.bytesSent == tr.bytesSent + TotalSize(ms)
  {
    SendAllQueues(tr, ms);
    assert SendAll(tr, ms).sendQueue == ms;
    AddSizesNoWrap(tr.bytesSent, ms);
  }

  /** Everything the transport can be asked to do, including engine callbacks and
      the processor running its next task. */
  datatype Event =
    | EvStart
    | EvStop
    | EvClose
    | EvSend(m: Message)
    | EvFlush
    | EvRunTask
    | EvCloseStream(stream: uint32)
    | EvUpdateBufferedAmount(id: uint16, delta: ptrdiff_t)
    | EvProcessData(data: Bytes, id: uint16)
    | EvClearStats
    | EvNewConn
    | EvConnClosed(ctxFound: bool)
    | EvHskDone(ctxFound: bool, status: HskStatus)
    | EvNewStream(h: StreamHandle)
    | EvStreamClose(h: StreamHandle)

  function Step(tr: QuicTransport, e: Event): QuicTransport
  {
    match e
    case EvStart => Start(tr).0
    case EvStop => Stop(tr)
    case EvClose => Close(tr)
    case EvSend(m) => Send(tr, m).1
    case EvFlush => Drain(tr).1
    case EvRunTask =>
      var (sched, t) := PopTask(tr.sched);
      (if t == Some(FlushTask) then Drain(tr).1 else tr).(sched := sched)
    case EvCloseStream(s) => CloseStream(tr, s).0
    case EvUpdateBufferedAmount(id, d) => UpdateBufferedAmount(tr, id, d).0
    case EvProcessData(data, id) => ProcessData(tr, data, id, StreamBinary).0
    case EvClearStats => ClearStats(tr)
    case EvNewConn => OnNewConn(tr)
    case EvConnClosed(found) => OnConnClosed(tr, found)
    case EvHskDone(found, st) => OnHskDone(tr, found, st)
    case EvNewStream(h) => OnNewStream(tr, h).0
    case EvStreamClose(h) => OnStreamClose(tr, h)
  }

  function Run(tr: QuicTransport, evs: seq<Event>): QuicTransport
    decreases |evs|
  {
    if |evs| == 0 then tr else Run(Step(tr, evs[0]), evs[1..])
  }

  /** One step keeps the constructor's choices. */
  lemma StepFixed(tr: QuicTransport, e: Event)
    ensures Step(tr, e).base.lower == tr.base.lower
    ensures Step(tr, e).settings == tr.settings
    ensures Step(tr, e).maxMessageSize == tr.maxMessageSize
    ensures Step(tr, e).sendShutdown == tr.sendShutdown
  {
    match e
    case EvRunTask =>
      var d := Drain(tr).1;
      assert d.base == tr.base && d.settings == tr.settings;
    case _ =>
  }

  /** Whatever happens, the lower transport, the settings and the maximum message
      size stay as constructed (`getLower` always returns the constructor's
      argument), and `sendShutdown` is never set. */
  lemma {:induction false} ConstructionFixed(tr: QuicTransport, evs: seq<Event>)
    ensures Run(tr, evs).base.lower == tr.base.lower
    ensures Run(tr, evs).settings == tr.settings
    ensures Run(tr, evs).maxMessageSize == tr.maxMessageSize
    ensures Run(tr, evs).sendShutdown == tr.sendShutdown
    decreases |evs|
  {
    if |evs| > 0 {
      StepFixed(tr, evs[0]);
      ConstructionFixed(Step(tr, evs[0]), evs[1..]);
    }
  }
}

=== FILE: quic_types.dfy ===
/** Constants and layouts declared in the QUIC transport's header: the stream
    type tags and the engine settings with their defaults. */
module QuicTypes {
  import opened Numeric

  /** Per-message stream tags. They reuse the WebRTC payload protocol identifiers
      (section 6.6 of RFC 8831 for the string/binary ones, RFC 8832 for the
      establishment-protocol control value 50); 55 is not used. */
  datatype StreamType =
    | StreamControl
    | StreamString
    | StreamBinaryPartial
    | StreamBinary
    | StreamStringPartial
    | StreamStringEmpty
    | StreamBinaryEmpty

  /** The `uint32_t` value of each tag. */
  function Tag(t: StreamType): uint32
  {
    match t
    case StreamControl => 50
    case StreamString => 51
    case StreamBinaryPartial => 52
    case StreamBinary => 53
    case StreamStringPartial => 54
    case StreamStringEmpty => 56
    case StreamBinaryEmpty => 57
  }

  /** The inverse of `Tag`: the stream type one of the seven tag values denotes. */
  function FromTag(v: uint32): (r: StreamType)
    requires v in {50, 51, 52, 53, 54, 56, 57}
    ensures Tag(r) == v
  {
    if v == 50 then StreamControl
    else if v == 51 then StreamString
    else if v == 52 then StreamBinaryPartial
    else if v == 53 then StreamBinary
    else if v == 54 then StreamStringPartial
    else if v == 56 then StreamStringEmpty
    else StreamBinaryEmpty
  }

  /** The tags are pairwise distinct, take exactly the values 50-54, 56 and 57, and
      no tag has the value 55. */
  lemma TagsDistinct(a: StreamType, b: StreamType)
    ensures Tag(a) == Tag(b) <==> a == b
    ensures Tag(a) in {50, 51, 52, 53, 54, 56, 57}
    ensures Tag(a) != 55
    ensures FromTag(Tag(a)) == a
  {
  }

  /** `QuicSettings`: stream limits, timeouts in microseconds, engine flags. */
  datatype QuicSettings = QuicSettings(
    maxStreamsIn: uint32,
    maxStreamsOut: uint32,
    handshakeTimeout: uint32,
    idleTimeout: uint32,
    pingPeriod: uint32,
    supportTcid0: bool,
    supportNstp: bool,
    delayedAcks: bool)

  /** The member initialisers of `QuicSettings`. The subset type `uint32` makes
      the verifier check that every product fits in 32 bits. */
  function DefaultSettings(): (s: QuicSettings)
    ensures s.maxStreamsIn == 100 && s.maxStreamsOut == 100
    ensures s.handshakeTimeout == 60_000_000
    ensures s.idleTimeout == 120_000_000
    ensures s.pingPeriod == 30_000_000
    ensures s.supportTcid0 && s.supportNstp && s.delayedAcks
  {
    QuicSettings(100, 100, 60 * 1000 * 1000, 120 * 1000 * 1000, 30 * 1000 * 1000, true, true, true)
  }

  /** The default maximum message size when the configuration leaves it unset. */
  const DEFAULT_MAX_MESSAGE_SIZE: nat := 65536
}

=== FILE: stream_table.dfy ===
/** The connection context's stream tables (`QuicConnCtx`): a 16-bit logical-id
    allocator and the two maps between logical ids and native stream handles,
    plus the per-stream contexts (`QuicStreamCtx`) the engine callbacks own. */
module StreamTable {
  import opened Wrappers
  import opened Numeric
  import opened Bytes

  /** An opaque native stream handle (`lsquic_stream_t *`). */
  type StreamHandle = nat

  /** `QuicStreamCtx`. The back pointer to the connection context is implicit. */
  datatype StreamCtx = StreamCtx(streamId: uint16, buffer: Bytes, isOpen: bool, isClosed: bool)

  /** `QuicConnCtx`. `hasConn` says whether the native connection pointer is set;
      `contexts` holds the live stream contexts, keyed by the handle the engine
      passes back with them. */
  datatype ConnCtx = ConnCtx(
    hasConn: bool,
    streams: map<StreamHandle, uint16>,
    streamIds: map<uint16, StreamHandle>,
    nextStreamId: uint16,
    contexts: map<StreamHandle, StreamCtx>)

  /** The context the transport constructor creates: no connection, empty maps,
      the allocator at 0. */
  function NewConnCtx(): (c: ConnCtx)
    ensures !c.hasConn && c.nextStreamId == 0
    ensures |c.streams| == 0 && |c.streamIds| == 0 && |c.contexts| == 0
  {
    ConnCtx(false, map[], map[], 0, map[])
  }

  /** The two maps are mutual inverses. */
  ghost predicate Inverse(c: ConnCtx)
  {
    && (forall h :: h in c.streams ==> c.streams[h] in c.streamIds && c.streamIds[c.streams[h]] == h)
    && (forall id :: id in c.streamIds ==> c.streamIds[id] in c.streams && c.streams[c.streamIds[id]] == id)
  }

  /** The table after `n` allocations, no more than 65536 of them: the allocator
      points past the last id handed out (0 once it has wrapped), every mapped id
      was handed out, and the maps are mutual inverses of equal size. */
  ghost predicate Inv(c: ConnCtx, n: nat)
  {
    && n <= UINT16_LIMIT
    && (n < UINT16_LIMIT ==> c.nextStreamId == n)
    && (n == UINT16_LIMIT ==> c.nextStreamId == 0)
    && (forall id :: id in c.streamIds ==> id < n)
    && Inverse(c)
    && |c.streams| == |c.streamIds|
  }

  /** `on_new_stream`: hand out the current logical id, advance the allocator with
      `uint16_t` wrap-around, enter both map directions and create a fresh stream
      context. Returns the updated table and the new context. */
  function OnNewStream(c: ConnCtx, h: StreamHandle): (r: (ConnCtx, StreamCtx))
    ensures r.1 == StreamCtx(c.nextStreamId, [], false, false)
    ensures r.0.nextStreamId == Inc16(c.nextStreamId)
    ensures h in r.0.streams && r.0.streams[h] == c.nextStreamId
    ensures c.nextStreamId in r.0.streamIds && r.0.streamIds[c.nextStreamId] == h
    ensures forall h' :: h' != h ==> (h' in r.0.streams <==> h' in c.streams)
    ensures forall h' :: h' != h && h' in c.streams ==> r.0.streams[h'] == c.streams[h']
    ensures forall id :: id != c.nextStreamId ==> (id in r.0.streamIds <==> id in c.streamIds)
    ensures forall id :: id != c.nextStreamId && id in c.streamIds ==> r.0.streamIds[id] == c.streamIds[id]
    ensures h in r.0.contexts && r.0.contexts[h] == r.1
    ensures forall h' :: h' != h ==> (h' in r.0.contexts <==> h' in c.contexts)
    ensures forall h' :: h' != h && h' in c.contexts ==> r.0.contexts[h'] == c.contexts[h']
    ensures r.0.hasConn == c.hasConn
  {
    var id := c.nextStreamId;
    var ctx := StreamCtx(id, [], false, false);
    (c.(streams := c.streams[h := id],
        streamIds := c.streamIds[id := h],
        nextStreamId := Inc16(id),
        contexts := c.contexts[h := ctx]),
     ctx)
  }

  /** `closeStream(stream)`: the `unsigned int` argument is converted to the map's
      `uint16_t` key. A known id has its native stream closed (the handle is
      returned) and both map entries erased; an unknown id changes nothing. */
  function CloseStream(c: ConnCtx, stream: uint32): (r: (ConnCtx, Option<StreamHandle>))
    ensures var id := ToUint16(stream);
      && (id !in c.streamIds ==> r == (c, None))
      && (id in c.streamIds ==>
            && r.1 == Some(c.streamIds[id])
            && r.0.streamIds.Keys == c.streamIds.Keys - {id}
            && r.0.streams.Keys == c.streams.Keys - {c.streamIds[id]}
            && (forall k :: k in r.0.streamIds ==> r.0.streamIds[k] == c.streamIds[k])
            && (forall k :: k in r.0.streams ==> r.0.streams[k] == c.streams[k]))
    ensures r.0.nextStreamId == c.nextStreamId && r.0.contexts == c.contexts && r.0.hasConn == c.hasConn
  {
    var id := ToUint16(stream);
    if id in c.streamIds then
      var h := c.streamIds[id];
      (c.(streams := c.streams - {h}, streamIds := c.streamIds - {id}), Some(h))
    else
      (c, None)
  }

  /** `sendReset(streamId)`: closes the native stream of a known id (returning its
      handle) but leaves both maps as they are. */
  function SendReset(c: ConnCtx, id: uint16): (r: (ConnCtx, Option<StreamHandle>))
    ensures r.0 == c
    ensures r.1.Some? <==> id in c.streamIds
    ensures r.1.Some? ==> c.streamIds[id] == r.1.value
    ensures r.1.Some? && Inverse(c) ==> c.streams[r.1.value] == id
  {
    if id in c.streamIds then (c, Some(c.streamIds[id])) else (c, None)
  }

  /** `on_stream_close`: deletes the stream's context; neither map is touched, and
      every other stream keeps its context. */
  function OnStreamClose(c: ConnCtx, h: StreamHandle): (r: ConnCtx)
    ensures r == c.(contexts := r.contexts)
    ensures h !in r.contexts && r.contexts.Keys == c.contexts.Keys - {h}
    ensures forall k :: k in r.contexts ==> r.contexts[k] == c.contexts[k]
  {
    c.(contexts := c.contexts - {h})
  }

  /** Allocating a fresh handle while fewer than 65536 ids have been handed out
      keeps the maps mutual inverses and grows each by exactly one entry. */
  lemma OnNewStreamKeepsInv(c: ConnCtx, n: nat, h: StreamHandle)
    requires Inv(c, n) && n < UINT16_LIMIT && h !in c.streams
    ensures Inv(OnNewStream(c, h).0, n + 1)
    ensures |OnNewStream(c, h).0.streams| == |c.streams| + 1
  {
    var c' := OnNewStream(c, h).0;
    assert c.nextStreamId == n && n !in c.streamIds;
    assert c'.streams == c.streams[h := n];
    assert c'.streamIds == c.streamIds[n := h];
  }

  /** Closing keeps the maps mutual inverses; a known id removes exactly one entry
      from each, an unknown one removes none. */
  lemma CloseStreamKeepsInv(c: ConnCtx, n: nat, stream: uint32)
    requires Inv(c, n)
    ensures Inv(CloseStream(c, stream).0, n)
    ensures var c' := CloseStream(c, stream).0;
      |c'.streams| == |c.streams| - (if ToUint16(stream) in c.streamIds then 1 else 0)
  {
    var id := ToUint16(stream);
    if id in c.streamIds {
      var h := c.streamIds[id];
      var c' := CloseStream(c, stream).0;
      assert c'.streams == c.streams - {h};
      assert c'.streamIds == c.streamIds - {id};
    }
  }

  /** Once the allocator has wrapped, a new stream reuses an id that may still be
      mapped: the stream that held it keeps pointing at it, so the maps stop being
      mutual inverses. */
  lemma WrapBreaksInverse(c: ConnCtx, h: StreamHandle)
    requires Inverse(c) && c.nextStreamId in c.streamIds && h !in c.streams
    ensures !Inverse(OnNewStream(c, h).0)
  {
    var old_h := c.streamIds[c.nextStreamId];
    var c' := OnNewStream(c, h).0;
    assert old_h != h;
    assert old_h in c'.streams && c'.streams[old_h] == c.nextStreamId;
    assert c'.streamIds[c.nextStreamId] == h;
  }

  /** The events that touch a connection's stream tables. */
  datatype StreamEvent =
    | NewStream(handle: StreamHandle)
    | Close(stream: uint32)
    | Reset(id: uint16)
    | NativeClose(handle: StreamHandle)

  function StreamStep(c: ConnCtx, e: StreamEvent): ConnCtx
  {
    match e
    case NewStream(h) => OnNewStream(c, h).0
    case Close(s) => CloseStream(c, s).0
    case Reset(id) => SendReset(c, id).0
    case NativeClose(h) => OnStreamClose(c, h)
  }

  function StreamRun(c: ConnCtx, evs: seq<StreamEvent>): ConnCtx
    decreases |evs|
  {
    if |evs| == 0 then c else StreamRun(StreamStep(c, evs[0]), evs[1..])
  }

  /** How many of the events' closes hit a mapped id. */
  function Removed(c: ConnCtx, evs: seq<StreamEvent>): nat
    decreases |evs|
  {
    if |evs| == 0 then 0
    else
      var hit := if evs[0].Close? && ToUint16(evs[0].stream) in c.streamIds then 1 else 0;
      hit + Removed(StreamStep(c, evs[0]), evs[1..])
  }

  /** The handles of the new-stream events, in order. */
  function NewHandles(evs: seq<StreamEvent>): seq<StreamHandle>
    decreases |evs|
  {
    if |evs| == 0 then []
    else if evs[0].NewStream? then [evs[0].handle] + NewHandles(evs[1..])
    else NewHandles(evs[1..])
  }

  ghost predicate Distinct(hs: seq<StreamHandle>)
  {
    forall i, j :: 0 <= i < j < |hs| ==> hs[i] != hs[j]
  }

  lemma DistinctTail(hs: seq<StreamHandle>)
    requires |hs| > 0 && Distinct(hs)
    ensures Distinct(hs[1..])
    ensures hs[0] !in hs[1..]
  {
  }

  /** The trace preconditions carry over from a new-stream event to the rest of
      the trace. */
  lemma NewStreamStep(c: ConnCtx, n: nat, evs: seq<StreamEvent>)
    requires |evs| > 0 && evs[0].NewStream?
    requires Inv(c, n)
    requires n + |NewHandles(evs)| <= UINT16_LIMIT
    requires Distinct(NewHandles(evs))
    requires forall i :: 0 <= i < |NewHandles(evs)| ==> NewHandles(evs)[i] !in c.streams
    ensures var c' := OnNewStream(c, evs[0].handle).0;
      && Inv(c', n + 1)
      && |c'.streams| == |c.streams| + 1
      && n + 1 + |NewHandles(evs[1..])| <= UINT16_LIMIT
      && Distinct(NewHandles(evs[1..]))
      && forall i :: 0 <= i < |NewHandles(evs[1..])| ==> NewHandles(evs[1..])[i] !in c'.streams
  {
    var h := evs[0].handle;
    var hs := NewHandles(evs);
    var tail := NewHandles(evs[1..]);
    assert hs == [h] + tail;
    assert tail == hs[1..];
    assert h !in c.streams by { assert hs[0] == h; }
    OnNewStreamKeepsInv(c, n, h);
    DistinctTail(hs);
    FreshTailStaysFresh(c, h, hs);
  }

  /** Handles still to come stay unmapped after the first of them is entered. */
  lemma FreshTailStaysFresh(c: ConnCtx, h: StreamHandle, hs: seq<StreamHandle>)
    requires |hs| > 0 && hs[0] == h && h !in hs[1..]
    requires forall i :: 0 <= i < |hs| ==> hs[i] !in c.streams
    ensures forall i :: 0 <= i < |hs[1..]| ==> hs[1..][i] !in OnNewStream(c, h).0.streams
  {
    var c' := OnNewStream(c, h).0;
    assert c'.streams.Keys == c.streams.Keys + {h};
    forall i | 0 <= i < |hs[1..]|
      ensures hs[1..][i] !in c'.streams
    {
      assert hs[1..][i] == hs[i + 1];
    }
  }

  /** The trace preconditions carry over from any other event to the rest of the
      trace: only an effective close shrinks the maps, by one entry each. */
  lemma OtherStep(c: ConnCtx, n: nat, evs: seq<StreamEvent>)
    requires |evs| > 0 && !evs[0].NewStream?
    requires Inv(c, n)
    requires forall i :: 0 <= i < |NewHandles(evs)| ==> NewHandles(evs)[i] !in c.streams
    ensures NewHandles(evs[1..]) == NewHandles(evs)
    ensures var c' := StreamStep(c, evs[0]);
      && Inv(c', n)
      && |c'.streams| == |c.streams| - (if evs[0].Close? && ToUint16(evs[0].stream) in c.streamIds then 1 else 0)
      && forall i :: 0 <= i < |NewHandles(evs)| ==> NewHandles(evs)[i] !in c'.streams
  {
    var e := evs[0];
    match e
    case Close(stream) =>
      CloseStreamKeepsInv(c, n, stream);
      assert CloseStream(c, stream).0.streams.Keys <= c.streams.Keys;
    case Reset(id) =>
      assert StreamStep(c, e) == c;
    case NativeClose(h) =>
      assert StreamStep(c, e) == c.(contexts := c.contexts - {h});
  }

  /** After N stream allocations (N at most 65536, from the allocator's start) with
      distinct native handles, and any resets, native closes and M effective
      `closeStream` calls, each map holds N - M entries and the maps are mutual
      inverses. */
  lemma {:induction false} TraceKeepsBijection(c: ConnCtx, n: nat, evs: seq<StreamEvent>)
    requires Inv(c, n)
    requires n + |NewHandles(evs)| <= UINT16_LIMIT
    requires Distinct(NewHandles(evs))
    requires forall i :: 0 <= i < |NewHandles(evs)| ==> NewHandles(evs)[i] !in c.streams
    ensures Inv(StreamRun(c, evs), n + |NewHandles(evs)|)
    ensures |StreamRun(c, evs).streams| == |c.streams| + |NewHandles(evs)| - Removed(c, evs)
    ensures |StreamRun(c, evs).streamIds| == |c.streams| + |NewHandles(evs)| - Removed(c, evs)
    decreases |evs|
  {
    if |evs| > 0 {
      var e := evs[0];
      var rest := evs[1..];
      var c' := StreamStep(c, e);
      if e.NewStream? {
        NewStreamStep(c, n, evs);
        TraceKeepsBijection(c', n + 1, rest);
      } else {
        OtherStep(c, n, evs);
        TraceKeepsBijection(c', n, rest);
      }
    }
  }

  /** From a fresh context: N allocations and M effective closes leave N - M entries
      in each map, and the maps are mutual inverses. */
  lemma FreshTraceBijection(evs: seq<StreamEvent>)
    requires |NewHandles(evs)| <= UINT16_LIMIT && Distinct(NewHandles(evs))
    ensures Inverse(StreamRun(NewConnCtx(), evs))
    ensures |StreamRun(NewConnCtx(), evs).streams| == |NewHandles(evs)| - Removed(NewConnCtx(), evs)
    ensures |StreamRun(NewConnCtx(), evs).streamIds| == |NewHandles(evs)| - Removed(NewConnCtx(), evs)
  {
    TraceKeepsBijection(NewConnCtx(), 0, evs);
  }

  /** After exactly 65536 allocations the allocator is back at 0: the next stream
      reuses logical id 0. */
  lemma AllocatorWrapsAfter65536(evs: seq<StreamEvent>)
    requires |NewHandles(evs)| == UINT16_LIMIT && Distinct(NewHandles(evs))
    ensures StreamRun(NewConnCtx(), evs).nextStreamId == 0
  {
    TraceKeepsBijection(NewConnCtx(), 0, evs);
  }
}

=== FILE: transport.dfy ===
/** The layered-transport base every transport of the stack derives from: a
    five-state connection lifecycle and a fixed reference to the transport below. */
module Transport {
  import opened Wrappers

  datatype State = Disconnected | Connecting | Connected | Completed | Failed

  /** Identity of another transport object of the stack (a `shared_ptr<Transport>`). */
  type TransportRef = nat

  /** The base-class fields the core depends on. `lower` is set once by the
      constructor and has no setter; the callback is kept only as present/absent. */
  datatype TransportBase = TransportBase(
    lower: Option<TransportRef>,
    hasStateCallback: bool,
    state: State)

  /** `Transport(lower = nullptr, callback = nullptr)`. */
  function NewTransport(lower: Option<TransportRef>, hasStateCallback: bool): (t: TransportBase)
    ensures t.state == Disconnected
    ensures t.lower == lower && t.hasStateCallback == hasStateCallback
  {
    TransportBase(lower, hasStateCallback, Disconnected)
  }

  /** The constructor called with its defaults. */
  function DefaultTransport(): (t: TransportBase)
    ensures t.lower.None? && !t.hasStateCallback && t.state == Disconnected
  {
    NewTransport(None, false)
  }

  /** `getLower()`. */
  function GetLower(t: TransportBase): Option<TransportRef>
  {
    t.lower
  }

  /** `changeState(s)`, taken as a plain assignment; whether the callback fires is
      decided in code that is not part of this model. */
  function ChangeState(t: TransportBase, s: State): (t': TransportBase)
    ensures t'.state == s
    ensures GetLower(t') == GetLower(t) && t'.hasStateCallback == t.hasStateCallback
  {
    t.(state := s)
  }

  /** The states, listed once each. */
  const AllStates: seq<State> := [Disconnected, Connecting, Connected, Completed, Failed]

  /** There are exactly five states, and every state is one of them. */
  lemma StateEnumeration(s: State)
    ensures s in AllStates
    ensures |AllStates| == 5
    ensures forall i, j :: 0 <= i < j < |AllStates| ==> AllStates[i] != AllStates[j]
  {
  }
}

=== FILE: wrappers.dfy ===
/** Failure-compatible wrappers shared by the whole model: `Option` stands for a
    nullable pointer or `std::optional`, `Result` for an operation that may throw. */
module Wrappers {

  datatype Option<+T> = None | Some(value: T)

  datatype Result<+R, +E> = Success(value: R) | Failure(error: E)
}
